=== FILE: README.md ===
# gitin, modelled in Dafny

gitin bootstraps a Git/SSH identity on a machine. It fills in a name, host
and label, resolves where the SSH directory, private key and SSH config file
live, derives the public key path and a `Host` block for the SSH config, and
records `user.name` / `user.email` in the repository's git configuration,
asking on the console before it overwrites anything. This project models the
decision logic of that core as pure functions. Commands, the console, the
file system and the machine identity all become inputs.

Modules, one per source file:

- `Wrappers` (`wrappers.dfy`) holds `Option` and `Result`. Every failure is a message, as the program's `anyhow` errors are.
- `Text` (`text.dfy`) holds ASCII counterparts of `trim`, `to_lowercase`, `contains` and `str::cmp`, with their algebra: trimming commutes with lower-casing, and trailing and leading whitespace vanish.
- `Prompts` (`prompts.dfy`) models `PromptWithOptions`: the builders, `get_option_value`, the answer to one input line, `is_default`, and the menu `print` writes (sorted by key then value, with the `[Default]` tag).
- `Permission` (`permission.dfy`) models `permission_granted`, the two-option yes/no gate built on the prompt. `Consents` states its decision directly, and `PermissionGranted`'s contract proves the prompt-based gate equal to it. The git configuration model calls `Consents`, so its proofs do not unfold the prompt each time.
- `AbsolutePath` (`absolute_path.dfy`) models paths by their components (root flag plus segments), `join`, `get_abs_path` over a set of existing paths, `get_pathbuf`, `with_extension`, `parent` and `create_dir_all`.
- `Process` (`process.dfy`) describes a command and what running it gave.
- `GitConfig` (`git_config.dfy`) models the four scopes, `get_value` and `set_value`. It works against command outcomes given as inputs and against a key→value store that produces those outcomes.
- `GitInit` (`git_init.dfy`) models the identity record and its builders, `update`, `generate_ssh_key_pair`, `update_ssh_config` and `execute`.

Console input is a sequence of lines. When the input is exhausted a read gives
the empty line, because `read_line` reads nothing, and the gate declines it.
`get_value`'s retry after a granted "initialise?" question therefore ends once
the answers run out: the recursion is on the number of unread lines.

`execute` has its `generate_ssh_key_pair` and `update_ssh_config` calls
commented out (`src/enums/git_init.rs:188-195`), so `Execute` runs `update`
and the two `set_value` calls only. Key generation and the config merge are
modelled as the separate functions the code defines.

`update` records the public key as the private key with its extension
replaced by "pub" (`PublicKeyAsWritten`), as the code computes it.
`generate_ssh_key_pair` is modelled with `ssh-keygen` writing the public
half where it really does, the key path with ".pub" appended
(`PublicKeyFor`); the two differ for a key name holding a dot (see
"## Findings").

The captured standard error of `ssh-keygen` is always empty because the
command inherits the terminal's streams, so `KeygenFailed` carries the exit
status and an empty error text.

## Model

| member | source | states |
|---|---|---|
| Prompts.WithMessage | src/enums/prompts.rs:15-18 | replaces the message only |
| Prompts.WithOption | src/enums/prompts.rs:20-23 | appends the option at the end; message and default unchanged |
| Prompts.WithDefaultKey | src/enums/prompts.rs:25-28 | replaces the default's key, keeps its value and the rest |
| Prompts.WithDefaultValue | src/enums/prompts.rs:30-33 | replaces the default's value, keeps its key and the rest |
| Prompts.KeyIndex | src/enums/prompts.rs:36-38 | the first option in insertion order whose key matches case-insensitively, or none matches |
| Prompts.GetOptionValue | src/enums/prompts.rs:35-40 | None exactly when no key matches ignoring case; otherwise the value of the first key match (values are never compared) |
| Prompts.DefaultOptionValue | src/enums/prompts.rs:87-89 | the value registered under the default key, or the default's own value when no key matches |
| Prompts.IsDefaultIgnoresCase | src/enums/prompts.rs:82-85 | is_default holds iff the selection equals the default key or the default value ignoring case |
| Prompts.SelectIndex | src/enums/prompts.rs:111-113 | the first option whose lower-cased key or value equals the selection, or none does |
| Prompts.Answer | src/enums/prompts.rs:110-124 | Error iff no option matches, with the message naming the default option value; Success carries the first match's value, which is some option's value |
| Prompts.Prompt | src/enums/prompts.rs:86-125 | the same, for the selection made from the line (trimmed, empty replaced by the default key, lower-cased) |
| Prompts.PromptBlankIsDefaultKey | src/enums/prompts.rs:101-108 | a blank line answers exactly as typing the default key would |
| Prompts.PromptIgnoresCase | src/enums/prompts.rs:101-113 | lower-casing the input line never changes the answer |
| Prompts.PromptIgnoresPadding | src/enums/prompts.rs:101 | any run of whitespace before and any run after the input never changes the answer |
| Prompts.Selection | src/enums/prompts.rs:101-108 | the compared token is lower-case and equals, up to case, the trimmed line, or the default key when the trimmed line is empty |
| Prompts.Menu | src/enums/prompts.rs:79 | the printed text is the message, a line feed, exactly the option lines in order, and the "=> " cue |
| Prompts.WithOptionKeepsSelection | src/enums/prompts.rs:111-113 | adding an option never changes a line that already matched one (first match wins) |
| Prompts.FirstIndexOf | src/enums/prompts.rs:111-113 | a matching option implies a first matching option at or before it |
| Prompts.EntryLeTransitive | src/enums/prompts.rs:58-65 | the key-then-value order is transitive |
| Prompts.EntryLeTotal | src/enums/prompts.rs:58-65 | any two options are ordered one way or the other |
| Prompts.EntryLeAntisymmetric | src/enums/prompts.rs:58-65 | the key-then-value order is antisymmetric |
| Prompts.Insert | src/enums/prompts.rs:58-65 | inserting into a sorted list gives a sorted permutation of the list plus the element |
| Prompts.SortEntries | src/enums/prompts.rs:55-65 | the display order is sorted by key then value and is a permutation of the options |
| Prompts.SortedUnique | src/enums/prompts.rs:55-65 | two sorted permutations of the same options are equal |
| Prompts.SortedSameHead | src/enums/prompts.rs:55-65 | two sorted arrangements of the same options start with the same option |
| Prompts.DisplayOrderIndependent | src/enums/prompts.rs:55-65 | the menu order depends only on which options exist, not on their registration order |
| Prompts.Tag | src/enums/prompts.rs:70-74 | "[Default]" iff key and value equal the default pair exactly (case-sensitively), else empty |
| Prompts.MenuLines | src/enums/prompts.rs:67-76 | one line per option, the i-th formatting the i-th option in display order |
| Prompts.TagIsCaseSensitive | src/enums/prompts.rs:70-74 | an option that matches the default key ignoring case can still be untagged |
| Permission.Gate | src/utilities/prompts.rs:7-11 | options y/Yes and n/No, default n/No, with the given question |
| Permission.Consents | src/utilities/prompts.rs:14 | only a trimmed answer of one or three characters ("y", "yes" in any case) consents |
| Permission.PermissionGranted | src/utilities/prompts.rs:3-19 | granted iff the trimmed, lower-cased line is "y" or "yes"; the question never matters |
| Permission.GateMatches | src/utilities/prompts.rs:9 | which gate option a selection matches |
| Permission.GateSelectionToken | src/utilities/prompts.rs:10 | a blank answer selects "n" |
| Permission.GateSelection | src/utilities/prompts.rs:13-18 | y/yes gives Success("Yes"), blank/n/no gives Success("No"), anything else an Error |
| Permission.GateDefault | src/utilities/prompts.rs:10-14 | "No" is the default and "Yes" is not |
| Permission.EmptyLineDeclines | src/utilities/prompts.rs:9-14 | an empty line is a refusal |
| Permission.GrantsUpperY | src/utilities/prompts.rs:14 | "Y" grants |
| Permission.GrantsPaddedYes | src/utilities/prompts.rs:14 | " yes\n" grants |
| Permission.DeclinesMaybe | src/utilities/prompts.rs:15-18 | an unknown answer refuses |
| Text.TrimStartSpec | src/enums/prompts.rs:101 | trim_start cuts exactly a whitespace prefix and stops at the first non-whitespace character |
| Text.TrimEndSpec | src/enums/prompts.rs:101 | trim_end cuts exactly a whitespace suffix and stops at the last non-whitespace character |
| Text.TrimSpec | src/enums/prompts.rs:101 | the trimmed answer is a slice of the input with only whitespace cut on either side, and begins and ends with non-whitespace |
| Text.TrimAppendSpace | src/enums/prompts.rs:101 | a trailing whitespace character, such as the line feed read_line keeps, does not change the trimmed answer |
| Text.TrimPrependSpace | src/enums/prompts.rs:101 | a leading whitespace character does not change the trimmed answer |
| Text.TrimPrependSpaces | src/enums/prompts.rs:101 | any run of leading whitespace does not change the trimmed answer |
| Text.TrimAppendSpaces | src/enums/prompts.rs:101 | any run of trailing whitespace does not change the trimmed answer |
| Text.StrLeTotal | src/enums/prompts.rs:58-65 | the lexicographic string order sort_by uses is total |
| Text.StrLeTransitive | src/enums/prompts.rs:58-65 | the lexicographic string order is transitive |
| Text.TrimLower | src/enums/prompts.rs:101-108 | trimming and lower-casing commute |
| AbsolutePath.JoinAssociative | src/utilities/absolute_path.rs:34-37 | joining is associative, so folding components is well defined |
| AbsolutePath.FoldJoinOnto | src/utilities/absolute_path.rs:34-37 | joining the folded components onto the parent is folding them from the parent |
| AbsolutePath.FoldJoinKeepsAbsolute | src/utilities/absolute_path.rs:34-37 | folding onto an absolute path stays absolute |
| AbsolutePath.FoldJoinRelative | src/utilities/absolute_path.rs:34-37 | relative components just append their segments |
| AbsolutePath.Candidate | src/utilities/absolute_path.rs:32-47 | explicit absolute: itself; explicit relative: the parent joined with it; none: the components folded onto the parent |
| AbsolutePath.GetAbsPath | src/utilities/absolute_path.rs:22-58 | Ok iff the candidate exists, and then it is the candidate; otherwise the "Path not found" message with the context |
| AbsolutePath.ContextOnlyInMessage | src/utilities/absolute_path.rs:49-57 | the context never changes whether or what is resolved |
| AbsolutePath.CandidateAbsolute | src/utilities/absolute_path.rs:32-47 | an absolute fallback parent makes every candidate absolute |
| AbsolutePath.EmptyComponentIsParent | src/utilities/absolute_path.rs:34-37 | the single empty component resolves to the parent itself |
| AbsolutePath.FallbackExample | src/utilities/absolute_path.rs:34-37 | /x with components a, b resolves to /x/a/b |
| AbsolutePath.ParsePath | src/utilities/absolute_path.rs:40 | the components of a text path are well formed, absolute iff it starts with "/" |
| AbsolutePath.ParseDisplay | src/utilities/absolute_path.rs:40 | writing a well-formed path as text and parsing it back gives the path |
| AbsolutePath.GetPathbuf | src/utilities/absolute_path.rs:69-80 | Ok iff the text is absolute, with its components; otherwise "Provided path is not absolute" |
| AbsolutePath.GetPathbufRoundTrip | src/utilities/absolute_path.rs:69-80 | an absolute well-formed path survives display and get_pathbuf unchanged |
| AbsolutePath.LastDot | src/enums/git_init.rs:152 | the position of the last dot in a name, or none |
| AbsolutePath.FileStem | src/enums/git_init.rs:152 | a file name without its extension; a leading dot is not an extension |
| AbsolutePath.WithExtension | src/enums/git_init.rs:152 | only the last segment changes, to its stem plus the new extension (the bare stem for an empty extension); an empty path or a trailing ".." is returned as is |
| AbsolutePath.WithExtensionIdempotent | src/enums/git_init.rs:152 | swapping to "pub" twice is swapping once |
| AbsolutePath.Parent | src/enums/git_init.rs:227-231 | the path without its last segment, if it has one |
| GitConfig.ToStr | src/enums/git_config.rs:14-21 | the token names the scope back, so the four tokens are distinct |
| GitConfig.ToStrInjective | src/enums/git_config.rs:14-21 | distinct scopes give distinct tokens |
| GitConfig.GetCommand | src/enums/git_config.rs:51-55 | `git config --<scope> --get <key>`, whose flag names the scope back |
| GitConfig.SetCommand | src/enums/git_config.rs:97-102 | `git config --<scope> --replace-all <key> <value>`, whose flag names the scope back |
| GitConfig.GetValue | src/enums/git_config.rs:50-77 | Err iff git could not start; success gives the trimmed output; any failure gives None; only the not-in-a-repository failure reads answers |
| GitConfig.GetValueQueries | src/enums/git_config.rs:51-69 | every retry repeats the same --get query |
| GitConfig.GetValueAsked | src/enums/git_config.rs:61-73 | only the initialise question is asked, once per query or one fewer |
| GitConfig.RetriesUntilDeclined | src/enums/git_config.rs:61-73 | outside a repository the query runs once plus once per consecutive agreeing answer |
| GitConfig.RetriesReadUpToRefusal | src/enums/git_config.rs:61-73 | exactly the agreeing answers and the refusal after them are read |
| GitConfig.Write | src/enums/git_config.rs:97-115 | the replace-all write is issued; Ok iff it succeeds, a failed write names the key |
| GitConfig.SetValue | src/enums/git_config.rs:79-116 | equal value: no write; differing value: write iff the user agrees; missing value: write without asking; a failed read is passed on |
| GitConfig.ReadBackIsTrimmed | src/enums/git_config.rs:58-60 | a stored value is read back trimmed |
| GitConfig.SetValueIn | src/enums/git_config.rs:79-116 | against a store: a successful write sets the key and nothing else changes; otherwise the store is unchanged |
| GitConfig.SetValueInWrites | src/enums/git_config.rs:80-103 | a missing key is always written; a key already holding the value is never written |
| GitConfig.SetTwiceWritesAtMostOnce | src/enums/git_config.rs:80-103 | setting the same trimmed value twice writes at most once |
| GitConfig.UntrimmedValueAsksAgain | src/enums/git_config.rs:80-91 | a stored value with surrounding whitespace is never found equal to itself, so the user is asked again |
| GitInit.New | src/enums/git_init.rs:62-64 | every field starts empty, unset or false |
| GitInit.Regenerate | src/enums/git_init.rs:66-69 | sets regenerate_key_pair and nothing else |
| GitInit.WithHost | src/enums/git_init.rs:71-74 | sets host and nothing else |
| GitInit.WithName | src/enums/git_init.rs:76-79 | sets name and nothing else |
| GitInit.WithEmail | src/enums/git_init.rs:81-84 | sets email and nothing else |
| GitInit.WithLabel | src/enums/git_init.rs:86-89 | sets label and nothing else |
| GitInit.WithSshDir | src/enums/git_init.rs:91-94 | sets the SSH directory to the given path and nothing else |
| GitInit.WithConfig | src/enums/git_init.rs:96-99 | sets the config file to the given path and nothing else |
| GitInit.WithKey | src/enums/git_init.rs:101-104 | sets the private key to the given path and nothing else |
| GitInit.BuildersCommute | src/enums/git_init.rs:66-104 | builders of different fields commute |
| GitInit.BuilderLastWins | src/enums/git_init.rs:66-104 | the last value set wins |
| GitInit.SetIfEmpty | src/enums/git_init.rs:118-124 | a non-empty field is kept, an empty one takes the fallback |
| GitInit.DefaultLabel | src/enums/git_init.rs:126-129 | the fallback label reads `<user>@<hostname> on <distro>`, with exactly those three parts in those places, and is never empty, so it is filled in at most once |
| GitInit.ConfigContent | src/enums/git_init.rs:165-171 | the Host block is exactly four lines in order: `Host <host>`, `User <name>`, `HostName <host>`, `IdentityFile <key>`, each ending in a line feed; for a well-formed key the IdentityFile argument parses back to the key |
| GitInit.Update | src/enums/git_init.rs:111-176 | label, name and host are filled only when empty; the three paths are resolved with their fallbacks and exist; the public key is the private key with its extension replaced by "pub"; the config block names host, name and key; a failed home lookup is passed on |
| GitInit.UpdatePublicKeyWithoutDot | src/enums/git_init.rs:152 | when the key's file name has no dot, the recorded public key is the file ssh-keygen writes |
| GitInit.UpdateFails | src/enums/git_init.rs:134-162 | update fails exactly when one of the three resolved paths is missing, naming the first missing one |
| GitInit.KeyFallback | src/enums/git_init.rs:143-148 | the private key defaults to dir/host/name |
| GitInit.ConfigFallback | src/enums/git_init.rs:156-161 | the config file defaults to dir/config |
| GitInit.UpdateFallbacks | src/enums/git_init.rs:126-162 | with nothing set: SSH dir = SSH home, key = home/host/name, config = home/config |
| GitInit.UpdateIdempotent | src/enums/git_init.rs:111-176 | update applied to its own result changes nothing |
| GitInit.PublicKeyAsWritten | src/enums/git_init.rs:152 | the private key with its extension swapped for "pub" |
| GitInit.PublicKeyFor | src/enums/git_init.rs:234-241 | the key's file name with ".pub" appended, in the same directory; never the key itself |
| GitInit.PublicKeyAsWrittenMisses | src/enums/git_init.rs:152 | for key "first.last" the swap names "first.pub", not "first.last.pub" |
| GitInit.PublicKeyAgreesWithoutDot | src/enums/git_init.rs:152 | for a key name without a dot both give the same path |
| GitInit.ReadFile | src/enums/git_init.rs:279 | the file's text, or the error for a directory or a missing path |
| GitInit.WriteFile | src/enums/git_init.rs:290-293 | the file exists afterwards with exactly that text; other files are unchanged |
| GitInit.RemoveFile | src/enums/git_init.rs:216-224 | the file is gone; nothing else changes |
| GitInit.MakeParent | src/enums/git_init.rs:227-231 | a missing parent is created with its ancestors; files unchanged |
| GitInit.MakeParentIdempotent | src/enums/git_init.rs:270-274 | creating the parent twice is creating it once |
| GitInit.MakeParentShorter | src/enums/git_init.rs:227-231 | every created directory is above the path: a proper prefix of it with the same root |
| GitInit.Cleared | src/enums/git_init.rs:215-231 | both key files are gone; other entries stay; new entries are directories above the key, proper prefixes of it |
| GitInit.KeygenCommand | src/enums/git_init.rs:234-242 | `ssh-keygen -t ed25519 -a 100 -f <key> -C <label>`, whose file argument parses back to the private key |
| GitInit.GenerateSshKeyPair | src/enums/git_init.rs:203-266 | skips iff both keys exist and no reset; otherwise clears both keys, makes the directory, runs ssh-keygen with fixed arguments; success writes the pair and copies the trimmed public key; failure reports status; after a successful run the outcome is Ok exactly when the public key file exists, and otherwise names why it could not be read |
| GitInit.StaleKeysRemoved | src/enums/git_init.rs:215-224 | after keygen runs, no old key file survives |
| GitInit.KeygenThenSkip | src/enums/git_init.rs:210-253 | with the public key where ssh-keygen writes it, a successful run copies the key and a second run skips |
| GitInit.AsWrittenRegenerates | src/enums/git_init.rs:210-252 | with the swapped extension and a dotted key name, a successful keygen reports an error and the next run regenerates, on any disk where nothing sits at the swapped `first.pub` path, including one that already holds the private key |
| GitInit.MergeConfig | src/enums/git_init.rs:277-296 | absent: the block; already contained: unchanged; otherwise old text, line feed, block |
| GitInit.MergeConfigContains | src/enums/git_init.rs:277-296 | the result always contains the block, and merging again changes nothing |
| GitInit.MergeConfigExtends | src/enums/git_init.rs:286-290 | existing text is only ever extended |
| GitInit.UpdateSshConfig | src/enums/git_init.rs:268-299 | succeeds exactly when no directory sits at the config path; the config file then holds the merge; other files unchanged; only directories above it, proper prefixes of its path, appear |
| GitInit.UpdateSshConfigIdempotent | src/enums/git_init.rs:268-299 | running it twice is running it once |
| GitInit.ConfigMergeIsTextual | src/enums/git_init.rs:282 | a copy missing its final line feed is not recognised and the block is appended again |
| GitInit.SetIdentity | src/enums/git_init.rs:196-197 | only user.name and user.email can change |
| GitInit.SetIdentityKeys | src/enums/git_init.rs:196-197 | each of user.name and user.email holds the requested value when its own write succeeded, and otherwise keeps its earlier presence and value |
| GitInit.Execute | src/enums/git_init.rs:178-200 | a failed update ends with status 1 and the error; otherwise the store and the two runs are those of setting `user.name` then `user.email` to the recorded identity, results ignored, other keys untouched |
| GitInit.ExecuteRecordsIdentity | src/enums/git_init.rs:196-197 | on a writable store without those keys, both are recorded |

## Left out

- The console is not modelled as I/O. Input is a sequence of lines, and printed text (`print`, `println!`, `eprintln!`) is dropped, apart from the menu text, which `Prompts.MenuLines` models.
- `whoami`, the SSH home lookup (`get_ssh_home`, src/utilities/ssh_dir.rs) and the clipboard are not called. `update` takes the user name, machine name, distribution and the home lookup's result as parameters, and the clipboard text is an output value.
- Processes are not run: every `git` and `ssh-keygen` outcome is a parameter. A successful `ssh-keygen` is taken to write both key files. Its interactive passphrase prompt is not modelled.
- `remove_file`, `create_dir_all` and `write` always succeed in the model; their I/O errors are not modelled. Reading reports a missing file or a directory.
- A leading "./" in a path given to a builder is normalised away: `ParsePath("./k")` is the relative path `k`, while `Path::components` keeps the leading current-directory component, so the program stores and writes `/h/.ssh/./k` where the model has `/h/.ssh/k`.
- The clipboard panics are not modelled: `Clipboard::new().unwrap()` and `set_text(..).unwrap()` (src/enums/git_init.rs:250-253) abort the process when no clipboard is available, and `Clipboard::new()` runs before the public key is read; the model always has a clipboard.
- The file system is a set of existing paths plus file texts. Symlinks, permissions, Windows prefixes, `..` resolution and trailing separators are not modelled.
- Lower-casing and trimming cover ASCII only; Rust's Unicode tables are not modelled.
- `GitConfig::list`, `get_git_dir`, `initialize_git_in_current_directory`, `activate_via_pull`, `GitInit::print`, the commented-out `Display` impl, `git_info_test`, the `#[test]` functions (they need a live console or repository) and the unused `get_option_keys` are left out. They only shell out, print, or are never called. `default_option_key` is folded into `Prompts.Selection`.
- src/utilities/git.rs, src/utilities/print.rs and src/utilities/mod.rs are not part of this model; they spawn git, print, or re-export.
- `ConfigStore` answers queries as git does inside a repository, so it never produces the "not a repository" error; that branch is modelled through `GetValue`'s outcome parameter.
- On failure `update` has already changed the record in place. The model returns only the error, because `execute` stops the process right after.
- UpdateIdempotent: requires an absolute SSH home, because resolving a relative one again would prefix it a second time.
- SetTwiceWritesAtMostOnce: requires a writable store and an already-trimmed value; `UntrimmedValueAsksAgain` shows why.
- GitConfig.GetValue: states the result and the unread input; the issued queries and questions are stated by `GetValueQueries` and `GetValueAsked`.

## Findings

| source | as written | input that shows it | evidently intended | confidence | as-written member | corrected member |
|---|---|---|---|---|---|---|
| src/enums/git_init.rs:152 | the public key path is the private key with its extension replaced by "pub" | a private key `/home/u/.ssh/github.com/first.last` (user name "first.last"): the program looks for `first.pub`, while `ssh-keygen -f` writes `first.last.pub`, so a call of `generate_ssh_key_pair` with the recorded paths would fail to copy the public key after a successful keygen, and every later call would delete and regenerate the pair; the defect is latent while `execute` keeps that call commented out (src/enums/git_init.rs:188-193) | the public key is the file ssh-keygen writes, the key path with ".pub" appended; then a successful keygen is followed by a skip (`GitInit.KeygenThenSkip`) | medium; not executed | GitInit.AsWrittenRegenerates | GitInit.PublicKeyFor |

=== FILE: absolute_path.dfy ===
/** Paths and layered path resolution. A path is modelled by its
    components: whether it starts at the root, and its named segments.
    `ParsePath` turns text into components the way `Path::components`
    does for the paths the program builds (empty and "." segments
    disappear, a leading "." as well, which `components` would keep as
    the current directory); `Display` turns components
    back into text. The file system is a snapshot: the set of paths that
    exist. */
module AbsolutePath {
  import opened Wrappers
  import opened Text

  datatype Path = Path(absolute: bool, segments: seq<string>)

  /** A segment as `components` yields it: non-empty, not ".", no separator. */
  predicate ValidSegment(s: string) {
    s != "" && s != "." && '/' !in s
  }

  predicate WellFormed(p: Path) {
    forall i :: 0 <= i < |p.segments| ==> ValidSegment(p.segments[i])
  }

  /** `PathBuf::new()`. */
  const Empty := Path(false, [])

  const NotAbsolute := "Provided path is not absolute"

  /** `base.join(p)`: an absolute `p` replaces `base`, a relative one is
      appended to it. */
  function Join(base: Path, p: Path): Path {
    if p.absolute then p else Path(base.absolute, base.segments + p.segments)
  }

  lemma JoinAssociative(a: Path, b: Path, c: Path)
    ensures Join(Join(a, b), c) == Join(a, Join(b, c))
  {
  }

  /** Joins `comps` onto `acc` one after another, left to right. */
  function FoldJoin(acc: Path, comps: seq<Path>): Path
    decreases |comps|
  {
    if |comps| == 0 then acc else FoldJoin(Join(acc, comps[0]), comps[1..])
  }

  /** Joining a folded path onto a parent is folding onto the parent. */
  lemma {:induction false} FoldJoinOnto(parent: Path, acc: Path, comps: seq<Path>)
    ensures Join(parent, FoldJoin(acc, comps)) == FoldJoin(Join(parent, acc), comps)
    decreases |comps|
  {
    if |comps| > 0 {
      FoldJoinOnto(parent, Join(acc, comps[0]), comps[1..]);
      JoinAssociative(parent, acc, comps[0]);
    }
  }

  /** Folding keeps a path absolute once it is. */
  lemma {:induction false} FoldJoinKeepsAbsolute(acc: Path, comps: seq<Path>)
    requires acc.absolute
    ensures FoldJoin(acc, comps).absolute
    decreases |comps|
  {
    if |comps| > 0 {
      FoldJoinKeepsAbsolute(Join(acc, comps[0]), comps[1..]);
    }
  }

  /** The segments of a sequence of relative paths, end to end. */
  function Flatten(comps: seq<Path>): seq<string> {
    if |comps| == 0 then [] else comps[0].segments + Flatten(comps[1..])
  }

  /** Relative components simply extend the path, in order. */
  lemma {:induction false} FoldJoinRelative(acc: Path, comps: seq<Path>)
    requires forall i :: 0 <= i < |comps| ==> !comps[i].absolute
    ensures FoldJoin(acc, comps) == Path(acc.absolute, acc.segments + Flatten(comps))
    decreases |comps|
  {
    if |comps| > 0 {
      FoldJoinRelative(Join(acc, comps[0]), comps[1..]);
      assert acc.segments + comps[0].segments + Flatten(comps[1..])
          == acc.segments + Flatten(comps);
    }
  }

  /** The path `get_abs_path` checks: the explicit path when it is
      absolute, the explicit path under the parent when it is relative,
      and otherwise the parent with every fallback component joined on. */
  function Candidate(explicit: Option<Path>, parent: Path, comps: seq<Path>): (r: Path)
    ensures explicit.Some? && explicit.value.absolute ==> r == explicit.value
    ensures explicit.Some? && !explicit.value.absolute
            ==> r.absolute == parent.absolute && r.segments == parent.segments + explicit.value.segments
    ensures explicit.None? ==> r == FoldJoin(parent, comps)
  {
    match explicit
    case None =>
      FoldJoinOnto(parent, Empty, comps);
      assert Join(parent, Empty) == parent;
      Join(parent, FoldJoin(Empty, comps))
    case Some(p) => if p.absolute then p else Join(parent, p)
  }

  function NotFound(p: Path, context: string): string {
    "Path not found: " + Display(p) + ", Context: " + context
  }

  /** Resolves a path and checks that it exists in the snapshot `fs`. The
      context label only appears in the error message. */
  function GetAbsPath(explicit: Option<Path>, parent: Path, comps: seq<Path>, context: string, fs: set<Path>)
    : (r: Result<Path>)
    ensures r.Ok? <==> Candidate(explicit, parent, comps) in fs
    ensures r.Ok? ==> r.value == Candidate(explicit, parent, comps) && r.value in fs
    ensures r.Err? ==> r.error == NotFound(Candidate(explicit, parent, comps), context)
  {
    var candidate := Candidate(explicit, parent, comps);
    if candidate in fs then Ok(candidate) else Err(NotFound(candidate, context))
  }

  /** The context label never changes whether or what resolves. */
  lemma ContextOnlyInMessage(explicit: Option<Path>, parent: Path, comps: seq<Path>, c1: string, c2: string, fs: set<Path>)
    ensures GetAbsPath(explicit, parent, comps, c1, fs).Ok? == GetAbsPath(explicit, parent, comps, c2, fs).Ok?
    ensures GetAbsPath(explicit, parent, comps, c1, fs).Ok?
            ==> GetAbsPath(explicit, parent, comps, c1, fs) == GetAbsPath(explicit, parent, comps, c2, fs)
  {
  }

  /** Under an absolute parent every candidate is absolute. */
  lemma CandidateAbsolute(explicit: Option<Path>, parent: Path, comps: seq<Path>)
    requires parent.absolute
    ensures Candidate(explicit, parent, comps).absolute
  {
    if explicit.None? {
      FoldJoinKeepsAbsolute(parent, comps);
    }
  }

  /** An empty fallback component adds nothing: `[""]` names the parent. */
  lemma EmptyComponentIsParent(parent: Path)
    ensures Candidate(None, parent, [ParsePath("")]) == parent
  {
    assert ParsePath("") == Empty;
  }

  /** With no explicit path, "/x" and the components "a", "b" give "/x/a/b". */
  lemma FallbackExample()
    ensures Candidate(None, Path(true, ["x"]), [Path(false, ["a"]), Path(false, ["b"])]) == Path(true, ["x", "a", "b"])
  {
    var comps := [Path(false, ["a"]), Path(false, ["b"])];
    FoldJoinRelative(Path(true, ["x"]), comps);
    assert Flatten(comps) == ["a", "b"] by {
      assert Flatten(comps[1..]) == ["b"] by {
        assert comps[1..][1..] == [];
      }
    }
  }

  // Text and components.

  function Keep(cur: string): seq<string> {
    if ValidSegment(cur) then [cur] else []
  }

  /** Splits at separators, `cur` being the segment read so far. */
  function SegmentsFrom(s: string, cur: string): (r: seq<string>)
    ensures forall i :: 0 <= i < |r| ==> ValidSegment(r[i])
    decreases |s|
  {
    if |s| == 0 then Keep(cur)
    else if s[0] == '/' then Keep(cur) + SegmentsFrom(s[1..], "")
    else SegmentsFrom(s[1..], cur + [s[0]])
  }

  /** The components of a path written as text. */
  function ParsePath(s: string): (p: Path)
    ensures WellFormed(p)
    ensures p.absolute <==> |s| > 0 && s[0] == '/'
  {
    Path(|s| > 0 && s[0] == '/', SegmentsFrom(s, ""))
  }

  function JoinSegments(segs: seq<string>): string {
    if |segs| == 0 then ""
    else if |segs| == 1 then segs[0]
    else segs[0] + "/" + JoinSegments(segs[1..])
  }

  /** How a path is written: a leading separator when absolute, segments
      separated by "/". */
  function Display(p: Path): string {
    (if p.absolute then "/" else "") + JoinSegments(p.segments)
  }

  lemma {:induction false} SegmentsFromRun(a: string, rest: string, cur: string)
    requires '/' !in a
    ensures SegmentsFrom(a + rest, cur) == SegmentsFrom(rest, cur + a)
    decreases |a|
  {
    if |a| > 0 {
      assert (a + rest)[0] == a[0];
      assert (a + rest)[1..] == a[1..] + rest;
      SegmentsFromRun(a[1..], rest, cur + [a[0]]);
      assert cur + [a[0]] + a[1..] == cur + a;
    } else {
      assert a + rest == rest;
      assert cur + a == cur;
    }
  }

  lemma {:induction false} SegmentsOfJoin(segs: seq<string>)
    requires forall i :: 0 <= i < |segs| ==> ValidSegment(segs[i])
    ensures SegmentsFrom(JoinSegments(segs), "") == segs
    decreases |segs|
  {
    if |segs| == 1 {
      SegmentsFromRun(segs[0], "", "");
      assert segs[0] + "" == segs[0];
    } else if |segs| > 1 {
      var tail := "/" + JoinSegments(segs[1..]);
      assert JoinSegments(segs) == segs[0] + tail;
      SegmentsFromRun(segs[0], tail, "");
      assert "" + segs[0] == segs[0];
      assert tail[1..] == JoinSegments(segs[1..]);
      SegmentsOfJoin(segs[1..]);
    }
  }

  lemma JoinSegmentsHead(segs: seq<string>)
    requires |segs| > 0 && ValidSegment(segs[0])
    ensures |JoinSegments(segs)| > 0 && JoinSegments(segs)[0] == segs[0][0]
  {
  }

  /** Writing a path out and reading it back gives the same components. */
  lemma ParseDisplay(p: Path)
    requires WellFormed(p)
    ensures ParsePath(Display(p)) == p
  {
    var body := JoinSegments(p.segments);
    SegmentsOfJoin(p.segments);
    if p.absolute {
      assert Display(p) == "/" + body;
      assert ("/" + body)[1..] == body;
    } else {
      assert Display(p) == body;
      if |p.segments| > 0 {
        JoinSegmentsHead(p.segments);
      }
    }
  }

  /** `get_pathbuf`: accepts text naming an absolute path and returns its
      components; anything else is refused. */
  function GetPathbuf(s: string): (r: Result<Path>)
    ensures r.Ok? <==> |s| > 0 && s[0] == '/'
    ensures r.Ok? ==> r.value.absolute && WellFormed(r.value) && r.value == ParsePath(s)
    ensures r.Err? ==> r.error == NotAbsolute
  {
    var p := ParsePath(s);
    if p.absolute then Ok(p) else Err(NotAbsolute)
  }

  /** An absolute path comes back from `get_pathbuf` unchanged. */
  lemma GetPathbufRoundTrip(p: Path)
    requires WellFormed(p) && p.absolute
    ensures GetPathbuf(Display(p)) == Ok(p)
  {
    ParseDisplay(p);
  }

  // File names and extensions, as `Path::with_extension` treats them.

  /** The index of the last '.', or -1. */
  function LastDot(s: string): (k: int)
    ensures -1 <= k < |s|
    ensures k >= 0 ==> s[k] == '.'
    ensures forall j :: k < j < |s| ==> s[j] != '.'
    ensures k < 0 <==> '.' !in s
  {
    if |s| == 0 then -1
    else if s[|s| - 1] == '.' then |s| - 1
    else LastDot(s[..|s| - 1])
  }

  /** The file name without its extension; a name whose only dot leads
      (".bashrc") has no extension. */
  function FileStem(name: string): (r: string)
    ensures |r| <= |name| && r == name[..|r|]
    ensures LastDot(name) <= 0 ==> r == name
    ensures LastDot(name) > 0 ==> r == name[..LastDot(name)]
  {
    var k := LastDot(name);
    if k > 0 then name[..k] else name
  }

  /** `path.with_extension(ext)`: the last segment's extension is replaced.
      A path without a file name (no segments, or ending in "..") is
      returned unchanged. */
  function WithExtension(p: Path, ext: string): (r: Path)
    ensures r.absolute == p.absolute && |r.segments| == |p.segments|
    ensures |p.segments| > 0 ==> r.segments[..|p.segments| - 1] == p.segments[..|p.segments| - 1]
    ensures |p.segments| > 0 && p.segments[|p.segments| - 1] != ".." && ext != ""
            ==> r.segments[|p.segments| - 1] == FileStem(p.segments[|p.segments| - 1]) + "." + ext
    ensures |p.segments| > 0 && p.segments[|p.segments| - 1] != ".." && ext == ""
            ==> r.segments[|p.segments| - 1] == FileStem(p.segments[|p.segments| - 1])
    ensures |p.segments| == 0 || p.segments[|p.segments| - 1] == ".." ==> r == p
  {
    var n := |p.segments|;
    if n == 0 || p.segments[n - 1] == ".." then p
    else
      var stem := FileStem(p.segments[n - 1]);
      Path(p.absolute, p.segments[..n - 1] + [if ext == "" then stem else stem + "." + ext])
  }

  lemma {:induction false} LastDotAppend(stem: string, ext: string)
    requires '.' !in ext
    ensures LastDot(stem + "." + ext) == |stem|
    decreases |ext|
  {
    var s := stem + "." + ext;
    if |ext| > 0 {
      assert s[|s| - 1] == ext[|ext| - 1];
      assert s[..|s| - 1] == stem + "." + ext[..|ext| - 1];
      LastDotAppend(stem, ext[..|ext| - 1]);
    } else {
      assert s[|s| - 1] == '.';
    }
  }

  /** Replacing the extension twice is replacing it once. */
  lemma WithExtensionIdempotent(p: Path)
    requires WellFormed(p)
    ensures WithExtension(WithExtension(p, "pub"), "pub") == WithExtension(p, "pub")
  {
    var n := |p.segments|;
    if n > 0 && p.segments[n - 1] != ".." {
      var stem := FileStem(p.segments[n - 1]);
      assert stem != "";
      assert '.' !in "pub";
      LastDotAppend(stem, "pub");
      assert (stem + "." + "pub")[..|stem|] == stem;
      assert FileStem(stem + "." + "pub") == stem;
    }
  }

  /** `path.parent()`: the path without its last segment, if it has one. */
  function Parent(p: Path): (r: Option<Path>)
    ensures r.Some? <==> |p.segments| > 0
    ensures r.Some? ==> r.value.absolute == p.absolute && p.segments == r.value.segments + [p.segments[|p.segments| - 1]]
  {
    if |p.segments| == 0 then None else Some(Path(p.absolute, p.segments[..|p.segments| - 1]))
  }

  /** The directories `create_dir_all(q)` makes: every non-empty prefix of `q`. */
  function Ancestors(q: Path): set<Path> {
    set k | 1 <= k <= |q.segments| :: Path(q.absolute, q.segments[..k])
  }
}

=== FILE: git_config.dfy ===
/** Reading and writing git configuration at one of four scopes. The
    program shells out to `git config`; here the outcome of each command is
    an input (`Exec`), and console answers are a sequence of lines. */
module GitConfig {
  import opened Wrappers
  import opened Text
  import opened Permission
  import opened Process

  datatype Scope = Global | Local | System | Worktree

  /** The scope a token names, if any: the inverse of `ToStr`. */
  function ScopeOf(token: string): Option<Scope> {
    if token == "global" then Some(Global)
    else if token == "local" then Some(Local)
    else if token == "system" then Some(System)
    else if token == "worktree" then Some(Worktree)
    else None
  }

  /** The fixed token naming a scope on git's command line. Distinct
      scopes have distinct tokens. */
  function ToStr(s: Scope): (r: string)
    ensures ScopeOf(r) == Some(s)
  {
    match s
    case Global => "global"
    case Local => "local"
    case System => "system"
    case Worktree => "worktree"
  }

  lemma ToStrInjective(a: Scope, b: Scope)
    ensures ToStr(a) == ToStr(b) ==> a == b
  {
    assert ScopeOf(ToStr(a)) == Some(a) && ScopeOf(ToStr(b)) == Some(b);
  }

  function Flag(s: Scope): string {
    "--" + ToStr(s)
  }

  const NotInRepository := "can only be used inside a git repository"

  const InitQuestion := "Git repository not initialized. Do you want to initialize it?"

  /** `git config --<scope> --get <key>`: the flag names the scope back. */
  function GetCommand(scope: Scope, key: string): (c: Command)
    ensures c.program == "git" && |c.args| == 4 && c.args[0] == "config" && c.args[2] == "--get"
    ensures |c.args[1]| > 2 && c.args[1][..2] == "--" && ScopeOf(c.args[1][2..]) == Some(scope)
    ensures c.args[3] == key
  {
    assert Flag(scope)[2..] == ToStr(scope);
    Command("git", ["config", Flag(scope), "--get", key])
  }

  /** `git config --<scope> --replace-all <key> <value>`. */
  function SetCommand(scope: Scope, key: string, value: string): (c: Command)
    ensures c.program == "git" && |c.args| == 5 && c.args[0] == "config" && c.args[2] == "--replace-all"
    ensures |c.args[1]| > 2 && c.args[1][..2] == "--" && ScopeOf(c.args[1][2..]) == Some(scope)
    ensures c.args[3] == key && c.args[4] == value
  {
    assert Flag(scope)[2..] == ToStr(scope);
    Command("git", ["config", Flag(scope), "--replace-all", key, value])
  }

  /** Reads one line of input: the next answer, or an empty line once the
      input is exhausted (`read_line` then reads nothing). */
  function NextLine(answers: seq<string>): (r: (string, seq<string>))
    ensures |answers| == 0 ==> r == ("", [])
    ensures |answers| > 0 ==> r == (answers[0], answers[1..])
  {
    if |answers| == 0 then ("", []) else (answers[0], answers[1..])
  }

  /** `rest` is what is left of `answers` after some lines were read. */
  predicate IsSuffix(rest: seq<string>, answers: seq<string>) {
    |rest| <= |answers| && rest == answers[|answers| - |rest|..]
  }

  /** The result of `get_value`, the queries it issued, the questions it
      asked and the unread input. */
  datatype Got = Got(value: Result<Option<string>>, queries: seq<Command>, asked: seq<string>, rest: seq<string>)

  /** `get_value`. `exec` is the outcome of `git config --<scope> --get key`.
      A repository is never initialised (that call is commented out), so a
      retry meets the same outcome: the query repeats while the user keeps
      agreeing, and the result is `None` whenever the query fails. Each
      question is answered by `permission_granted`, whose decision on a
      line is `Consents(line)` (see `PermissionGranted`). */
  function GetValue(scope: Scope, key: string, exec: Exec, answers: seq<string>): (r: Got)
    ensures r.value.Err? <==> exec.SpawnFailed?
    ensures exec.SpawnFailed? ==> r.value.error == exec.reason && r.rest == answers
    ensures exec.Exited? && exec.success ==> r.value == Ok(Some(Trim(exec.stdout))) && r.rest == answers
    ensures exec.Exited? && !exec.success ==> r.value == Ok(None)
    ensures exec.Exited? && !exec.success && !Contains(exec.stderr, NotInRepository)
            ==> r.rest == answers && |r.queries| == 1
    ensures IsSuffix(r.rest, answers)
    decreases |answers|
  {
    var query := GetCommand(scope, key);
    match exec
    case SpawnFailed(reason) => Got(Err(reason), [query], [], answers)
    case Exited(success, _, stdout, stderr) =>
      if success then Got(Ok(Some(Trim(stdout))), [query], [], answers)
      else if Contains(stderr, NotInRepository) then
        var (line, rest) := NextLine(answers);
        if Consents(line) then
          EmptyLineDeclines(InitQuestion);
          var again := GetValue(scope, key, exec, rest);
          Got(again.value, [query] + again.queries, [InitQuestion] + again.asked, again.rest)
        else
          Got(Ok(None), [query], [InitQuestion], rest)
      else
        Got(Ok(None), [query], [], answers)
  }

  /** Every query `get_value` issues is the same `--get`. */
  lemma {:induction false} GetValueQueries(scope: Scope, key: string, exec: Exec, answers: seq<string>)
    ensures var r := GetValue(scope, key, exec, answers);
            |r.queries| >= 1 && forall i :: 0 <= i < |r.queries| ==> r.queries[i] == GetCommand(scope, key)
    decreases |answers|
  {
    var r := GetValue(scope, key, exec, answers);
    var query := GetCommand(scope, key);
    if exec.Exited? && !exec.success && Contains(exec.stderr, NotInRepository) {
      var (line, rest) := NextLine(answers);
      if Consents(line) {
        EmptyLineDeclines(InitQuestion);
        var again := GetValue(scope, key, exec, rest);
        GetValueQueries(scope, key, exec, rest);
        assert r.queries == [query] + again.queries;
        forall i | 0 <= i < |r.queries| ensures r.queries[i] == query {
          if i > 0 { assert r.queries[i] == again.queries[i - 1]; }
        }
      } else {
        assert r.queries == [query];
      }
    } else {
      assert r.queries == [query];
    }
  }

  /** The only question `get_value` asks is whether to initialise: once
      before each retry, and once more when the user then declines. */
  lemma {:induction false} GetValueAsked(scope: Scope, key: string, exec: Exec, answers: seq<string>)
    ensures var r := GetValue(scope, key, exec, answers);
            forall i :: 0 <= i < |r.asked| ==> r.asked[i] == InitQuestion
    ensures var r := GetValue(scope, key, exec, answers);
            |r.asked| == |r.queries| - 1 || |r.asked| == |r.queries|
    decreases |answers|
  {
    var r := GetValue(scope, key, exec, answers);
    var query := GetCommand(scope, key);
    if exec.Exited? && !exec.success && Contains(exec.stderr, NotInRepository) {
      var (line, rest) := NextLine(answers);
      if Consents(line) {
        EmptyLineDeclines(InitQuestion);
        var again := GetValue(scope, key, exec, rest);
        GetValueAsked(scope, key, exec, rest);
        assert r.queries == [query] + again.queries;
        assert r.asked == [InitQuestion] + again.asked;
        forall i | 0 <= i < |r.asked| ensures r.asked[i] == InitQuestion {
          if i > 0 { assert r.asked[i] == again.asked[i - 1]; }
        }
      } else {
        assert r.queries == [query] && r.asked == [InitQuestion];
      }
    } else {
      assert r.queries == [query] && r.asked == [];
    }
  }

  /** How many answers in a row, from the first, agree to initialise. */
  function LeadingGrants(answers: seq<string>): (n: nat)
    ensures n <= |answers|
  {
    if |answers| == 0 then 0
    else if Consents(answers[0]) then 1 + LeadingGrants(answers[1..])
    else 0
  }

  /** Outside a repository the query is asked once, then once more for
      every consecutive agreeing answer. */
  lemma {:induction false} RetriesUntilDeclined(scope: Scope, key: string, exec: Exec, answers: seq<string>)
    requires exec.Exited? && !exec.success && Contains(exec.stderr, NotInRepository)
    ensures |GetValue(scope, key, exec, answers).queries| == 1 + LeadingGrants(answers)
    decreases |answers|
  {
    if |answers| == 0 {
      EmptyLineDeclines(InitQuestion);
    } else if Consents(answers[0]) {
      RetriesUntilDeclined(scope, key, exec, answers[1..]);
    }
  }

  /** The first refusal, or the end of input, ends the retries: exactly the
      agreeing answers and the refusal after them are read. */
  lemma {:induction false} RetriesReadUpToRefusal(scope: Scope, key: string, exec: Exec, answers: seq<string>)
    requires exec.Exited? && !exec.success && Contains(exec.stderr, NotInRepository)
    ensures LeadingGrants(answers) < |answers|
            ==> GetValue(scope, key, exec, answers).rest == answers[LeadingGrants(answers) + 1..]
    ensures LeadingGrants(answers) == |answers| ==> GetValue(scope, key, exec, answers).rest == []
    decreases |answers|
  {
    if |answers| == 0 {
      EmptyLineDeclines(InitQuestion);
    } else if Consents(answers[0]) {
      var tail := answers[1..];
      RetriesReadUpToRefusal(scope, key, exec, tail);
      var n := LeadingGrants(tail);
      if n < |tail| {
        assert tail[n + 1..] == answers[n + 2..];
      }
    }
  }

  /** The outcome of one `set_value`: its result, the queries and the write
      it issued, and the unread input. */
  datatype SetRun = SetRun(result: Result<()>, queries: seq<Command>, asked: seq<string>, write: Option<Command>, rest: seq<string>)

  function UpdateQuestion(scope: Scope, key: string, current: string, value: string): string {
    "Update the " + ToStr(scope) + " config key '" + key + "' from '" + current + "' to '" + value + "'?"
  }

  function WriteFailed(key: string): string {
    "Failed to update Git config for key: " + key
  }

  /** Issues the replace-all write; `writeExec` is its outcome. */
  function Write(scope: Scope, key: string, value: string, queries: seq<Command>, asked: seq<string>,
                 writeExec: Exec, rest: seq<string>)
    : (r: SetRun)
    ensures r.write == Some(SetCommand(scope, key, value))
    ensures r.queries == queries && r.asked == asked && r.rest == rest
    ensures r.result.Ok? <==> writeExec.Exited? && writeExec.success
    ensures writeExec.Exited? && !writeExec.success ==> r.result == Err(WriteFailed(key))
  {
    var write := Some(SetCommand(scope, key, value));
    match writeExec
    case SpawnFailed(reason) => SetRun(Err(reason), queries, asked, write, rest)
    case Exited(success, _, _, _) =>
      if success then SetRun(Ok(()), queries, asked, write, rest)
      else SetRun(Err(WriteFailed(key)), queries, asked, write, rest)
  }

  /** `set_value`: reads the current value first. An equal value is left
      alone; a different one is replaced only if the user agrees, and a
      refusal is not an error; a missing one is written without asking. */
  function SetValue(scope: Scope, key: string, value: string, getExec: Exec, writeExec: Exec, answers: seq<string>)
    : (r: SetRun)
    ensures r.write.Some? ==> r.write.value == SetCommand(scope, key, value)
    ensures r.write.Some? ==> (r.result.Ok? <==> writeExec.Exited? && writeExec.success)
    ensures r.write.Some? && writeExec.Exited? && !writeExec.success ==> r.result == Err(WriteFailed(key))
    ensures r.write.None? ==> (r.result.Ok? <==> getExec.Exited?)
    ensures getExec.SpawnFailed? ==> r.write.None?
    ensures getExec.Exited? && getExec.success && Trim(getExec.stdout) == value
            ==> r.write.None? && r.result.Ok? && r.rest == answers
    ensures getExec.Exited? && getExec.success && Trim(getExec.stdout) != value
            ==> r.asked == [UpdateQuestion(scope, key, Trim(getExec.stdout), value)]
                && (r.write.Some? <==> Consents(NextLine(answers).0))
    ensures getExec.Exited? && !getExec.success ==> r.write.Some?
    ensures getExec.Exited? && !getExec.success && !Contains(getExec.stderr, NotInRepository) ==> r.rest == answers
    ensures IsSuffix(r.rest, answers)
  {
    var got := GetValue(scope, key, getExec, answers);
    match got.value
    case Err(e) => SetRun(Err(e), got.queries, got.asked, None, got.rest)
    case Ok(current) =>
      if current.Some? && current.value == value then
        SetRun(Ok(()), got.queries, got.asked, None, got.rest)
      else if current.Some? then
        var question := UpdateQuestion(scope, key, current.value, value);
        var (line, rest) := NextLine(got.rest);
        if Consents(line) then
          Write(scope, key, value, got.queries, got.asked + [question], writeExec, rest)
        else
          SetRun(Ok(()), got.queries, got.asked + [question], None, rest)
      else
        Write(scope, key, value, got.queries, got.asked, writeExec, got.rest)
  }

  // A scope's configuration as git keeps it, to follow several calls.

  /** One scope of git's configuration: its entries and whether git can
      write them. */
  datatype ConfigStore = ConfigStore(values: map<string, string>, writable: bool)

  /** How `git config --get key` ends on this store: the value and a line
      feed on success, status 1 and no output for a missing key. */
  function QueryOutcome(store: ConfigStore, key: string): Exec {
    if key in store.values then Exited(true, "exit status: 0", store.values[key] + "\n", "")
    else Exited(false, "exit status: 1", "", "")
  }

  function WriteOutcome(store: ConfigStore): Exec {
    if store.writable then Exited(true, "exit status: 0", "", "")
    else Exited(false, "exit status: 255", "", "error: could not lock config file")
  }

  lemma ReadBackIsTrimmed(store: ConfigStore, key: string)
    ensures key in store.values ==> Trim(QueryOutcome(store, key).stdout) == Trim(store.values[key])
  {
    if key in store.values {
      TrimAppendSpace(store.values[key], '\n');
    }
  }

  /** `a` and `b` hold the same entries for every key outside `keys`. */
  predicate SameExcept(a: map<string, string>, b: map<string, string>, keys: set<string>) {
    (forall k | k in a && k !in keys :: k in b && a[k] == b[k])
    && (forall k | k in b && k !in keys :: k in a)
  }

  lemma SameExceptBoth(a: map<string, string>, b: map<string, string>, c: map<string, string>, k1: string, k2: string)
    requires SameExcept(b, a, {k1}) && SameExcept(c, b, {k2})
    ensures SameExcept(c, a, {k1, k2})
  {
  }

  /** The store after a write of `value` to `key` that took effect or not. */
  function Apply(store: ConfigStore, key: string, value: string, written: bool): (r: ConfigStore)
    ensures r.writable == store.writable
    ensures SameExcept(r.values, store.values, {key})
    ensures written ==> key in r.values && r.values[key] == value
    ensures !written ==> r == store
  {
    if written then store.(values := store.values[key := value]) else store
  }

  /** `set_value` against a store: a successful write sets the key and
      leaves every other entry as it was; otherwise nothing changes. */
  function SetValueIn(scope: Scope, store: ConfigStore, key: string, value: string, answers: seq<string>)
    : (r: (ConfigStore, SetRun))
    ensures r.0.writable == store.writable
    ensures SameExcept(r.0.values, store.values, {key})
    ensures r.1.write.Some? && r.1.result.Ok? ==> key in r.0.values && r.0.values[key] == value
    ensures r.1.write.None? || r.1.result.Err? ==> r.0 == store
    ensures r.1.write.Some? ==> (r.1.result.Ok? <==> store.writable)
    ensures r.1 == SetValue(scope, key, value, QueryOutcome(store, key), WriteOutcome(store), answers)
  {
    var run := SetValue(scope, key, value, QueryOutcome(store, key), WriteOutcome(store), answers);
    (Apply(store, key, value, run.write.Some? && run.result.Ok?), run)
  }

  /** A missing key is always written; a key already holding the value (as
      git prints it back, trimmed) is never written. */
  lemma SetValueInWrites(scope: Scope, store: ConfigStore, key: string, value: string, answers: seq<string>)
    ensures key !in store.values ==> SetValueIn(scope, store, key, value, answers).1.write.Some?
    ensures key in store.values && Trim(store.values[key]) == value
            ==> SetValueIn(scope, store, key, value, answers).1.write.None?
                && SetValueIn(scope, store, key, value, answers).1.result.Ok?
  {
    ReadBackIsTrimmed(store, key);
  }

  /** Setting the same trimmed value twice in a row writes at most once:
      after a successful write the second call finds the value in place. */
  lemma SetTwiceWritesAtMostOnce(scope: Scope, store: ConfigStore, key: string, value: string, answers: seq<string>)
    requires store.writable && Trim(value) == value
    ensures var first := SetValueIn(scope, store, key, value, answers);
            var second := SetValueIn(scope, first.0, key, value, first.1.rest);
            first.1.write.None? || second.1.write.None?
  {
    var first := SetValueIn(scope, store, key, value, answers);
    if first.1.write.Some? {
      assert first.1.result.Ok?;
      assert key in first.0.values && first.0.values[key] == value;
      SetValueInWrites(scope, first.0, key, value, first.1.rest);
    }
  }

  /** A stored value with surrounding whitespace is never found equal to
      itself, because git's answer is read back trimmed: setting it again
      asks the user, and an agreeing answer writes it once more. */
  lemma UntrimmedValueAsksAgain(scope: Scope, store: ConfigStore, key: string, value: string, answers: seq<string>)
    requires key in store.values && store.values[key] == value && Trim(value) != value
    ensures var run := SetValueIn(scope, store, key, value, answers).1;
            run.asked == [UpdateQuestion(scope, key, Trim(value), value)]
            && (run.write.Some? <==> Consents(NextLine(answers).0))
  {
    ReadBackIsTrimmed(store, key);
  }
}

=== FILE: git_init.dfy ===
/** The identity record the program fills in and the SSH files it derives
    from it: the builders, `update`'s defaults and resolved paths, key
    generation's skip-or-regenerate decision, the merge into the SSH config
    file, and `execute`. The user's name, machine name and distribution,
    the SSH home directory, the file system and the outcome of
    `ssh-keygen` are inputs. */
module GitInit {
  import opened Wrappers
  import opened Text
  import opened Process
  import opened AbsolutePath
  import opened GitConfig

  datatype GitInit = GitInit(
    host: string,
    name: string,
    email: string,
    keyLabel: string,
    sshDir: Option<Path>,
    privateKey: Option<Path>,
    publicKey: Option<Path>,
    configFile: Option<Path>,
    configContent: string,
    regenerateKeyPair: bool)

  /** `GitInit::new()`: every field at its default. */
  function New(): (r: GitInit)
    ensures r.host == "" && r.name == "" && r.email == "" && r.keyLabel == ""
    ensures r.sshDir.None? && r.privateKey.None? && r.publicKey.None? && r.configFile.None?
    ensures r.configContent == "" && !r.regenerateKeyPair
  {
    GitInit("", "", "", "", None, None, None, None, "", false)
  }

  // Builders: each sets its own field and leaves the others alone.

  function Regenerate(g: GitInit): (r: GitInit)
    ensures r.regenerateKeyPair && r.(regenerateKeyPair := g.regenerateKeyPair) == g
  {
    g.(regenerateKeyPair := true)
  }

  function WithHost(g: GitInit, host: string): (r: GitInit)
    ensures r.host == host && r.(host := g.host) == g
  {
    g.(host := host)
  }

  function WithName(g: GitInit, name: string): (r: GitInit)
    ensures r.name == name && r.(name := g.name) == g
  {
    g.(name := name)
  }

  function WithEmail(g: GitInit, email: string): (r: GitInit)
    ensures r.email == email && r.(email := g.email) == g
  {
    g.(email := email)
  }

  function WithLabel(g: GitInit, keyLabel: string): (r: GitInit)
    ensures r.keyLabel == keyLabel && r.(keyLabel := g.keyLabel) == g
  {
    g.(keyLabel := keyLabel)
  }

  /** The path is kept as its components, which is all later steps use. */
  function WithSshDir(g: GitInit, pathOrName: string): (r: GitInit)
    ensures r.sshDir == Some(ParsePath(pathOrName)) && r.(sshDir := g.sshDir) == g
  {
    g.(sshDir := Some(ParsePath(pathOrName)))
  }

  function WithConfig(g: GitInit, pathOrName: string): (r: GitInit)
    ensures r.configFile == Some(ParsePath(pathOrName)) && r.(configFile := g.configFile) == g
  {
    g.(configFile := Some(ParsePath(pathOrName)))
  }

  function WithKey(g: GitInit, pathOrName: string): (r: GitInit)
    ensures r.privateKey == Some(ParsePath(pathOrName)) && r.(privateKey := g.privateKey) == g
  {
    g.(privateKey := Some(ParsePath(pathOrName)))
  }

  /** Builders of different fields can be applied in either order. */
  lemma BuildersCommute(g: GitInit, host: string, name: string, email: string, key: string)
    ensures WithName(WithHost(g, host), name) == WithHost(WithName(g, name), host)
    ensures WithEmail(WithKey(g, key), email) == WithKey(WithEmail(g, email), key)
    ensures Regenerate(WithHost(g, host)) == WithHost(Regenerate(g), host)
  {
  }

  /** Setting a field twice keeps the last value. */
  lemma BuilderLastWins(g: GitInit, a: string, b: string)
    ensures WithHost(WithHost(g, a), b) == WithHost(g, b)
    ensures WithKey(WithKey(g, a), b) == WithKey(g, b)
    ensures Regenerate(Regenerate(g)) == Regenerate(g)
  {
  }

  // update

  /** What `whoami` reports. */
  datatype SysInfo = SysInfo(username: string, hostname: string, distro: string)

  /** `<user>@<host> on <distro>`: never empty, so a label filled in once
      stays as it is. */
  function DefaultLabel(sys: SysInfo): (r: string)
    ensures r != ""
    ensures |r| >= |sys.username| + 1 && r[..|sys.username| + 1] == sys.username + "@"
    ensures |r| >= |sys.distro| + 4 && r[|r| - |sys.distro| - 4..] == " on " + sys.distro
    ensures |r| == |sys.username| + |sys.hostname| + |sys.distro| + 5
    ensures r[|sys.username| + 1..|sys.username| + 1 + |sys.hostname|] == sys.hostname
  {
    var r := sys.username + "@" + sys.hostname + " on " + sys.distro;
    assert r == (sys.username + "@") + (sys.hostname + " on " + sys.distro);
    assert r == (sys.username + "@" + sys.hostname) + (" on " + sys.distro);
    r
  }

  /** A field left empty takes `fallback`; a set one is kept. */
  function SetIfEmpty(field: string, fallback: string): (r: string)
    ensures field != "" ==> r == field
    ensures field == "" ==> r == fallback
  {
    if field == "" then fallback else field
  }

  /** The block `update` prepares for the SSH config file. */
  function ConfigContent(host: string, name: string, privateKey: Path): (r: string)
    ensures var first := "Host " + host + "\n";
            |r| >= |first| && r[..|first|] == first
    ensures var last := "\tIdentityFile " + Display(privateKey) + "\n";
            |r| >= |last| && r[|r| - |last|..] == last
    ensures Contains(r, "\tUser " + name + "\n") && Contains(r, "\tHostName " + host + "\n")
    ensures var first := "Host " + host + "\n";
            var user := "\tUser " + name + "\n";
            var last := "\tIdentityFile " + Display(privateKey) + "\n";
            |r| >= |first| + |user| + |last|
            && r[|first|..|first| + |user|] == user
            && r[|first| + |user|..|r| - |last|] == "\tHostName " + host + "\n"
    ensures WellFormed(privateKey) ==> ParsePath(r[|r| - |Display(privateKey)| - 1..|r| - 1]) == privateKey
  {
    var first := "Host " + host + "\n";
    var user := "\tUser " + name + "\n";
    var hostName := "\tHostName " + host + "\n";
    var last := "\tIdentityFile " + Display(privateKey) + "\n";
    ConcatParts(first, user, hostName, last);
    var r := first + user + hostName + last;
    EnclosedSlice(first + user + hostName + "\tIdentityFile ", Display(privateKey), '\n');
    assert r == first + user + hostName + "\tIdentityFile " + Display(privateKey) + ['\n'];
    assert WellFormed(privateKey) ==> ParsePath(Display(privateKey)) == privateKey by {
      if WellFormed(privateKey) {
        ParseDisplay(privateKey);
      }
    }
    r
  }

  /** The public key path the model uses: where `ssh-keygen -f key`
      writes the public half, the key's file name with ".pub" appended. */
  function PublicKeyFor(key: Path): (r: Path)
    ensures r.absolute == key.absolute
    ensures |key.segments| > 0 ==> r.segments == key.segments[..|key.segments| - 1] + [key.segments[|key.segments| - 1] + ".pub"]
    ensures |r.segments| > 0 && |r.segments| >= |key.segments|
    ensures r != key
  {
    var n := |key.segments|;
    if n == 0 then Path(key.absolute, [".pub"])
    else
      var r := Path(key.absolute, key.segments[..n - 1] + [key.segments[n - 1] + ".pub"]);
      assert |r.segments[n - 1]| != |key.segments[n - 1]|;
      r
  }

  /** The public key path as `update` computes it: the private key with
      its extension replaced by "pub". */
  function PublicKeyAsWritten(privateKey: Path): (r: Path)
    ensures r.absolute == privateKey.absolute && |r.segments| == |privateKey.segments|
    ensures |privateKey.segments| > 0 ==> r.segments[..|r.segments| - 1] == privateKey.segments[..|r.segments| - 1]
    ensures |privateKey.segments| > 0 && privateKey.segments[|privateKey.segments| - 1] != ".."
            ==> r.segments[|privateKey.segments| - 1]
                == FileStem(privateKey.segments[|privateKey.segments| - 1]) + ".pub"
  {
    WithExtension(privateKey, "pub")
  }

  /** A key whose file name carries a dot, as a user name such as
      "first.last" gives: the extension swap names a file `ssh-keygen`
      never writes. */
  lemma PublicKeyAsWrittenMisses()
    ensures var key := Path(true, ["home", "u", ".ssh", "github.com", "first.last"]);
            PublicKeyAsWritten(key) == Path(true, ["home", "u", ".ssh", "github.com", "first.pub"])
            && PublicKeyAsWritten(key) != PublicKeyFor(key)
  {
    var key := Path(true, ["home", "u", ".ssh", "github.com", "first.last"]);
    assert "first.last" == "first" + "." + "last";
    LastDotAppend("first", "last");
    assert FileStem("first.last") == "first";
    var r := PublicKeyAsWritten(key);
    assert r.segments[..4] == key.segments[..4];
    assert r.segments[4] == "first.pub" by {
      assert "first" + "." + "pub" == "first.pub";
    }
    assert r.segments == key.segments[..4] + ["first.pub"];
    assert PublicKeyFor(key).segments[4] == "first.last.pub";
  }

  /** For file names without a dot the two agree, which is why the
      difference goes unnoticed with the default key names. */
  lemma PublicKeyAgreesWithoutDot(privateKey: Path)
    requires |privateKey.segments| > 0
    requires '.' !in privateKey.segments[|privateKey.segments| - 1]
    ensures PublicKeyAsWritten(privateKey) == PublicKeyFor(privateKey)
  {
    var n := |privateKey.segments|;
    var last := privateKey.segments[n - 1];
    assert FileStem(last) == last;
    var r := PublicKeyAsWritten(privateKey);
    assert r.segments == privateKey.segments[..n - 1] + [last + ".pub"];
  }

  /** `update`. Empty label, name and host are filled in from `sys`; the
      SSH directory, private key and config file are resolved (each must
      exist in `fs`); the public key and the config block are derived.
      `sshHome` is the result of looking up the SSH home directory. */
  function Update(g: GitInit, sys: SysInfo, sshHome: Result<Path>, fs: set<Path>): (r: Result<GitInit>)
    ensures r.Ok? ==> r.value.keyLabel == SetIfEmpty(g.keyLabel, DefaultLabel(sys))
    ensures r.Ok? ==> r.value.name == SetIfEmpty(g.name, LowerStr(sys.username))
    ensures r.Ok? ==> r.value.host == SetIfEmpty(g.host, LowerStr(sys.hostname))
    ensures r.Ok? ==> r.value.email == g.email && r.value.regenerateKeyPair == g.regenerateKeyPair
    ensures sshHome.Err? ==> r == Err(sshHome.error)
    ensures r.Ok? ==> sshHome.Ok?
                      && r.value.sshDir == Some(Candidate(g.sshDir, sshHome.value, [ParsePath("")]))
    ensures r.Ok? ==> r.value.privateKey
                      == Some(Candidate(g.privateKey, r.value.sshDir.value,
                                        [ParsePath(r.value.host), ParsePath(r.value.name)]))
    ensures r.Ok? ==> r.value.configFile == Some(Candidate(g.configFile, r.value.sshDir.value, [ParsePath("config")]))
    ensures r.Ok? ==> r.value.publicKey == Some(PublicKeyAsWritten(r.value.privateKey.value))
    ensures r.Ok? ==> r.value.configContent
                      == ConfigContent(r.value.host, r.value.name, r.value.privateKey.value)
    ensures r.Ok? ==> r.value.sshDir.value in fs && r.value.privateKey.value in fs
                      && r.value.configFile.value in fs
  {
    var keyLabel := SetIfEmpty(g.keyLabel, DefaultLabel(sys));
    var name := SetIfEmpty(g.name, LowerStr(sys.username));
    var host := SetIfEmpty(g.host, LowerStr(sys.hostname));
    match sshHome
    case Err(e) => Err(e)
    case Ok(home) =>
      match GetAbsPath(g.sshDir, home, [ParsePath("")], "ssh_dir", fs)
      case Err(e) => Err(e)
      case Ok(sshDir) =>
        match GetAbsPath(g.privateKey, sshDir, [ParsePath(host), ParsePath(name)], "private_key", fs)
        case Err(e) => Err(e)
        case Ok(privateKey) =>
          match GetAbsPath(g.configFile, sshDir, [ParsePath("config")], "config_file", fs)
          case Err(e) => Err(e)
          case Ok(configFile) =>
            Ok(g.(keyLabel := keyLabel, name := name, host := host,
                  sshDir := Some(sshDir), privateKey := Some(privateKey),
                  publicKey := Some(PublicKeyAsWritten(privateKey)), configFile := Some(configFile),
                  configContent := ConfigContent(host, name, privateKey)))
  }

  /** `update` fails exactly when the home lookup fails or one of the three
      resolved paths does not exist; the error names what was missing. */
  lemma UpdateFails(g: GitInit, sys: SysInfo, home: Path, fs: set<Path>)
    ensures var sshDir := Candidate(g.sshDir, home, [ParsePath("")]);
            sshDir !in fs ==> Update(g, sys, Ok(home), fs) == Err(NotFound(sshDir, "ssh_dir"))
    ensures var sshDir := Candidate(g.sshDir, home, [ParsePath("")]);
            var host := SetIfEmpty(g.host, LowerStr(sys.hostname));
            var name := SetIfEmpty(g.name, LowerStr(sys.username));
            var key := Candidate(g.privateKey, sshDir, [ParsePath(host), ParsePath(name)]);
            sshDir in fs && key !in fs ==> Update(g, sys, Ok(home), fs) == Err(NotFound(key, "private_key"))
    ensures var sshDir := Candidate(g.sshDir, home, [ParsePath("")]);
            var host := SetIfEmpty(g.host, LowerStr(sys.hostname));
            var name := SetIfEmpty(g.name, LowerStr(sys.username));
            var key := Candidate(g.privateKey, sshDir, [ParsePath(host), ParsePath(name)]);
            var config := Candidate(g.configFile, sshDir, [ParsePath("config")]);
            sshDir in fs && key in fs ==> (Update(g, sys, Ok(home), fs).Ok? <==> config in fs)
  {
  }

  /** The private key's fallback: `<dir>/<host>/<name>`, when neither
      names an absolute path. */
  lemma KeyFallback(dir: Path, host: string, name: string)
    requires |host| == 0 || host[0] != '/'
    requires |name| == 0 || name[0] != '/'
    ensures Candidate(None, dir, [ParsePath(host), ParsePath(name)])
            == Path(dir.absolute, dir.segments + ParsePath(host).segments + ParsePath(name).segments)
  {
    var comps := [ParsePath(host), ParsePath(name)];
    FoldJoinRelative(dir, comps);
    assert Flatten(comps) == ParsePath(host).segments + ParsePath(name).segments by {
      assert comps[1..] == [ParsePath(name)];
      assert Flatten([ParsePath(name)]) == ParsePath(name).segments by {
        assert [ParsePath(name)][1..] == [];
      }
    }
  }

  /** The config file's fallback: `<dir>/config`. */
  lemma ConfigFallback(dir: Path)
    ensures Candidate(None, dir, [ParsePath("config")]) == Path(dir.absolute, dir.segments + ["config"])
  {
    ConfigSegment();
    FoldJoinRelative(dir, [ParsePath("config")]);
    assert Flatten([ParsePath("config")]) == ["config"] by {
      assert [ParsePath("config")][1..] == [];
    }
  }

  /** With nothing set, the SSH directory is the SSH home, the private key
      is `<home>/<host>/<name>` and the config file is `<home>/config`. */
  lemma UpdateFallbacks(sys: SysInfo, home: Path, fs: set<Path>)
    requires Update(New(), sys, Ok(home), fs).Ok?
    requires |sys.hostname| == 0 || sys.hostname[0] != '/'
    requires |sys.username| == 0 || sys.username[0] != '/'
    ensures var r := Update(New(), sys, Ok(home), fs).value;
            r.sshDir == Some(home)
            && r.privateKey == Some(Path(home.absolute, home.segments
                                         + ParsePath(LowerStr(sys.hostname)).segments
                                         + ParsePath(LowerStr(sys.username)).segments))
            && r.configFile == Some(Path(home.absolute, home.segments + ["config"]))
  {
    EmptyComponentIsParent(home);
    var r := Update(New(), sys, Ok(home), fs).value;
    assert r.sshDir == Some(home);
    var host := LowerStr(sys.hostname);
    var name := LowerStr(sys.username);
    assert r.host == host && r.name == name;
    assert |host| == 0 || host[0] != '/';
    assert |name| == 0 || name[0] != '/';
    KeyFallback(home, host, name);
    ConfigFallback(home);
  }

  lemma ConfigSegment()
    ensures ParsePath("config") == Path(false, ["config"])
  {
    assert "config" + "" == "config" && "" + "config" == "config";
    SegmentsFromRun("config", "", "");
    assert ValidSegment("config");
  }

  /** Running `update` on its own result changes nothing, as long as the
      SSH home is absolute: every path is then already resolved. */
  lemma UpdateIdempotent(g: GitInit, sys: SysInfo, home: Path, fs: set<Path>)
    requires home.absolute
    requires Update(g, sys, Ok(home), fs).Ok?
    ensures var r := Update(g, sys, Ok(home), fs).value;
            Update(r, sys, Ok(home), fs) == Ok(r)
  {
    var r := Update(g, sys, Ok(home), fs).value;
    CandidateAbsolute(g.sshDir, home, [ParsePath("")]);
    var sshDir := r.sshDir.value;
    CandidateAbsolute(g.privateKey, sshDir, [ParsePath(r.host), ParsePath(r.name)]);
    CandidateAbsolute(g.configFile, sshDir, [ParsePath("config")]);
    assert r.keyLabel != "";
    var r2 := Update(r, sys, Ok(home), fs).value;
    assert r2.sshDir == r.sshDir;
    assert r2.host == r.host && r2.name == r.name;
    assert r2.privateKey == r.privateKey;
    assert r2.configFile == r.configFile;
  }

  /** The public key `update` records is the file `ssh-keygen` writes
      whenever the key's file name has no dot, which is the case for the
      default `<host>/<name>` layout with a dot-free user name; for a dotted
      name it is not (`PublicKeyAsWrittenMisses`). */
  lemma UpdatePublicKeyWithoutDot(g: GitInit, sys: SysInfo, home: Path, fs: set<Path>)
    requires Update(g, sys, Ok(home), fs).Ok?
    requires var key := Update(g, sys, Ok(home), fs).value.privateKey.value;
             |key.segments| > 0 && '.' !in key.segments[|key.segments| - 1]
    ensures var r := Update(g, sys, Ok(home), fs).value;
            r.publicKey == Some(PublicKeyFor(r.privateKey.value))
  {
    var r := Update(g, sys, Ok(home), fs).value;
    PublicKeyAgreesWithoutDot(r.privateKey.value);
  }

  // The file system, as `generate_ssh_key_pair` and `update_ssh_config`
  // see it.

  /** Existing entries (files and directories) and the text of the files. */
  datatype Disk = Disk(entries: set<Path>, files: map<Path, string>)

  /** Every file is an entry. */
  predicate Consistent(d: Disk) {
    d.files.Keys <= d.entries
  }

  const NoSuchFile := "No such file or directory (os error 2)"
  const IsADirectory := "Is a directory (os error 21)"

  /** `read_to_string`. */
  function ReadFile(d: Disk, p: Path): (r: Result<string>)
    ensures r.Ok? <==> p in d.files
    ensures r.Ok? ==> r.value == d.files[p]
    ensures r.Err? ==> r.error == (if p in d.entries then IsADirectory else NoSuchFile)
  {
    if p in d.files then Ok(d.files[p])
    else if p in d.entries then Err(IsADirectory)
    else Err(NoSuchFile)
  }

  /** `write`: creates or replaces a file. */
  function WriteFile(d: Disk, p: Path, text: string): (r: Disk)
    ensures r.entries == d.entries + {p}
    ensures p in r.files && r.files[p] == text
    ensures r.files - {p} == d.files - {p}
  {
    Disk(d.entries + {p}, d.files[p := text])
  }

  /** `remove_file`. */
  function RemoveFile(d: Disk, p: Path): (r: Disk)
    ensures r.entries == d.entries - {p} && r.files == d.files - {p}
  {
    Disk(d.entries - {p}, d.files - {p})
  }

  /** Creates the parent directory of `p` and its own ancestors when the
      parent is missing. */
  function MakeParent(d: Disk, p: Path): (r: Disk)
    ensures r.files == d.files
    ensures d.entries <= r.entries
    ensures Parent(p).Some? && Parent(p).value !in d.entries ==> r.entries == d.entries + Ancestors(Parent(p).value)
    ensures Parent(p).None? || Parent(p).value in d.entries ==> r == d
  {
    match Parent(p)
    case None => d
    case Some(parent) => if parent !in d.entries then Disk(d.entries + Ancestors(parent), d.files) else d
  }

  lemma MakeParentIdempotent(d: Disk, p: Path)
    ensures MakeParent(MakeParent(d, p), p) == MakeParent(d, p)
  {
  }

  /** Every directory `MakeParent` creates lies above `p`: a proper
      prefix of it with the same root. */
  lemma MakeParentShorter(d: Disk, p: Path, q: Path)
    requires q in MakeParent(d, p).entries && q !in d.entries
    ensures q.absolute == p.absolute && |q.segments| < |p.segments|
    ensures q.segments == p.segments[..|q.segments|]
  {
  }

  // generate_ssh_key_pair

  /** What `ssh-keygen` writes when it succeeds. */
  datatype KeyPair = KeyPair(privateText: string, publicText: string)

  /** The outcome of one `generate_ssh_key_pair`: its result, the disk
      afterwards, the keygen command if one ran, and what went to the
      clipboard. */
  datatype KeygenRun = KeygenRun(result: Result<()>, disk: Disk, command: Option<Command>, clipboard: Option<string>)

  /** `ssh-keygen -t ed25519 -a 100 -f <key> -C <label>`: the file argument
      names the private key itself. */
  function KeygenCommand(privateKey: Path, keyLabel: string): (c: Command)
    ensures c.program == "ssh-keygen" && |c.args| == 8
    ensures c.args[..4] == ["-t", "ed25519", "-a", "100"]
    ensures c.args[4] == "-f" && c.args[6] == "-C" && c.args[7] == keyLabel
    ensures WellFormed(privateKey) ==> ParsePath(c.args[5]) == privateKey
  {
    assert WellFormed(privateKey) ==> ParsePath(Display(privateKey)) == privateKey by {
      if WellFormed(privateKey) {
        ParseDisplay(privateKey);
      }
    }
    Command("ssh-keygen", ["-t", "ed25519", "-a", "100", "-f", Display(privateKey), "-C", keyLabel])
  }

  /** The error for a failed keygen. Its standard error stream is passed
      through to the terminal, so the captured error text is empty. */
  function KeygenFailed(status: string): string {
    "SSH Keygen Error |> " + status + " |> "
  }

  /** Both keys removed, then the key's directory made. */
  function Cleared(d: Disk, privateKey: Path, publicKey: Path): (r: Disk)
    ensures privateKey !in r.entries && privateKey !in r.files
    ensures publicKey !in r.files
    ensures forall q :: q in d.entries && q != privateKey && q != publicKey ==> q in r.entries
    ensures forall q :: q in r.entries ==> (q in d.entries && q != privateKey && q != publicKey)
                                           || (q.absolute == privateKey.absolute && |q.segments| < |privateKey.segments|
                                               && q.segments == privateKey.segments[..|q.segments|])
    ensures r.files == d.files - {privateKey, publicKey}
  {
    var removed := RemoveFile(RemoveFile(d, privateKey), publicKey);
    forall q | q in MakeParent(removed, privateKey).entries && q !in removed.entries
      ensures q.absolute == privateKey.absolute && |q.segments| < |privateKey.segments|
              && q.segments == privateKey.segments[..|q.segments|]
    {
      MakeParentShorter(removed, privateKey, q);
    }
    assert privateKey !in MakeParent(removed, privateKey).entries by {
      if privateKey in MakeParent(removed, privateKey).entries {
        MakeParentShorter(removed, privateKey, privateKey);
      }
    }
    MakeParent(removed, privateKey)
  }

  /** `generate_ssh_key_pair`. Nothing happens when both keys exist and no
      reset was asked for. Otherwise both keys are removed, the key's
      directory is made, and `ssh-keygen` runs with outcome `keygen`; on
      success it writes `pair`, and the public key's text, trimmed, goes
      to the clipboard. */
  function GenerateSshKeyPair(d: Disk, privateKey: Path, publicKey: Path, keyLabel: string, reset: bool,
                              keygen: Exec, pair: KeyPair): (r: KeygenRun)
    ensures r.command.None? <==> privateKey in d.entries && publicKey in d.entries && !reset
    ensures r.command.None? ==> r.result.Ok? && r.disk == d && r.clipboard.None?
    ensures r.command.Some? ==> r.command.value == KeygenCommand(privateKey, keyLabel)
    ensures r.command.Some? && !(keygen.Exited? && keygen.success)
            ==> r.result.Err? && r.clipboard.None? && r.disk == Cleared(d, privateKey, publicKey)
    ensures r.command.Some? && keygen.Exited? && !keygen.success ==> r.result == Err(KeygenFailed(keygen.status))
    ensures r.command.Some? && keygen.Exited? && keygen.success
            ==> r.disk == WriteFile(WriteFile(Cleared(d, privateKey, publicKey), privateKey, pair.privateText),
                                    PublicKeyFor(privateKey), pair.publicText)
    ensures r.clipboard.Some? <==> r.command.Some? && r.result.Ok?
    ensures r.clipboard.Some? ==> publicKey in r.disk.files && r.clipboard.value == Trim(r.disk.files[publicKey])
    ensures r.command.Some? && keygen.Exited? && keygen.success
            ==> (r.result.Ok? <==> publicKey in r.disk.files)
                && (r.result.Err? ==> r.result.error == (if publicKey in r.disk.entries then IsADirectory else NoSuchFile))
  {
    if privateKey in d.entries && publicKey in d.entries && !reset then
      KeygenRun(Ok(()), d, None, None)
    else
      var removed :=
        if reset || privateKey !in d.entries || publicKey !in d.entries then
          RemoveFile(RemoveFile(d, privateKey), publicKey)
        else d;
      var ready := MakeParent(removed, privateKey);
      assert ready == Cleared(d, privateKey, publicKey);
      var command := KeygenCommand(privateKey, keyLabel);
      match keygen
      case SpawnFailed(reason) => KeygenRun(Err(reason), ready, Some(command), None)
      case Exited(success, status, _, _) =>
        if success then
          var written := WriteFile(WriteFile(ready, privateKey, pair.privateText),
                                   PublicKeyFor(privateKey), pair.publicText);
          match ReadFile(written, publicKey)
          case Err(e) => KeygenRun(Err(e), written, Some(command), None)
          case Ok(text) => KeygenRun(Ok(()), written, Some(command), Some(Trim(text)))
        else
          KeygenRun(Err(KeygenFailed(status)), ready, Some(command), None)
  }

  /** Once keygen has run, the key files that existed before are gone:
      what is on disk at the key paths is what keygen wrote, if anything. */
  lemma StaleKeysRemoved(d: Disk, privateKey: Path, publicKey: Path, keyLabel: string, reset: bool,
                         keygen: Exec, pair: KeyPair)
    requires GenerateSshKeyPair(d, privateKey, publicKey, keyLabel, reset, keygen, pair).command.Some?
    ensures var r := GenerateSshKeyPair(d, privateKey, publicKey, keyLabel, reset, keygen, pair);
            !(keygen.Exited? && keygen.success) ==> privateKey !in r.disk.entries && publicKey !in r.disk.files
    ensures var r := GenerateSshKeyPair(d, privateKey, publicKey, keyLabel, reset, keygen, pair);
            keygen.Exited? && keygen.success
            ==> r.disk.files[privateKey] == pair.privateText
                && (publicKey in r.disk.files <==> publicKey == privateKey || publicKey == PublicKeyFor(privateKey))
  {
  }

  /** With the public key where `ssh-keygen` puts it, a successful run
      copies the public text and a second run without reset skips. */
  lemma KeygenThenSkip(d: Disk, privateKey: Path, keyLabel: string, reset: bool, pair: KeyPair,
                       status: string, stdout: string, stderr: string, again: Exec, pair2: KeyPair)
    ensures var publicKey := PublicKeyFor(privateKey);
            var first := GenerateSshKeyPair(d, privateKey, publicKey, keyLabel, reset,
                                            Exited(true, status, stdout, stderr), pair);
            var second := GenerateSshKeyPair(first.disk, privateKey, publicKey, keyLabel, false, again, pair2);
            first.command.Some? ==> first.clipboard == Some(Trim(pair.publicText))
                                    && second.command.None? && second.disk == first.disk
  {
  }

  /** With the public key from the extension swap and a dotted key name,
      a successful keygen is reported as an error and every later run
      deletes and regenerates the key pair. */
  lemma AsWrittenRegenerates(d: Disk, keyLabel: string, pair: KeyPair, again: Exec, pair2: KeyPair)
    requires Path(true, ["home", "u", ".ssh", "github.com", "first.pub"]) !in d.entries
    ensures var key := Path(true, ["home", "u", ".ssh", "github.com", "first.last"]);
            var publicKey := PublicKeyAsWritten(key);
            var first := GenerateSshKeyPair(d, key, publicKey, keyLabel, false,
                                            Exited(true, "exit status: 0", "", ""), pair);
            var second := GenerateSshKeyPair(first.disk, key, publicKey, keyLabel, false, again, pair2);
            first.result == Err(NoSuchFile) && second.command.Some?
  {
    var key := Path(true, ["home", "u", ".ssh", "github.com", "first.last"]);
    PublicKeyAsWrittenMisses();
    var publicKey := PublicKeyAsWritten(key);
    assert publicKey != key by {
      assert publicKey.segments[4] == "first.pub";
    }
    var first := GenerateSshKeyPair(d, key, publicKey, keyLabel, false,
                                    Exited(true, "exit status: 0", "", ""), pair);
    var ready := Cleared(d, key, publicKey);
    var written := WriteFile(WriteFile(ready, key, pair.privateText), PublicKeyFor(key), pair.publicText);
    assert first.disk == written;
    assert publicKey != PublicKeyFor(key);
    assert publicKey !in ready.files;
    assert publicKey !in WriteFile(ready, key, pair.privateText).files;
    assert publicKey !in written.files;
    assert publicKey !in ready.entries by {
      assert |publicKey.segments| == |key.segments|;
    }
    assert publicKey !in written.entries;
  }

  // update_ssh_config

  /** The new text of the config file: the block on its own when there is
      no file, the file unchanged when it already holds the block, and the
      block appended after a line feed otherwise. */
  function MergeConfig(current: Option<string>, content: string): (r: string)
    ensures current.None? ==> r == content
    ensures current.Some? && Contains(current.value, content) ==> r == current.value
    ensures current.Some? && !Contains(current.value, content) ==> r == current.value + "\n" + content
  {
    match current
    case None => content
    case Some(text) => if Contains(text, content) then text else text + "\n" + content
  }

  /** The merged text always holds the block, and merging again changes
      nothing. */
  lemma MergeConfigContains(current: Option<string>, content: string)
    ensures Contains(MergeConfig(current, content), content)
    ensures MergeConfig(Some(MergeConfig(current, content)), content) == MergeConfig(current, content)
  {
    match current
    case None => ContainsSelf(content);
    case Some(text) =>
      if !Contains(text, content) {
        assert text + "\n" + content == (text + "\n") + content;
        ContainsSuffix(text + "\n", content);
      }
  }

  /** An existing file is only ever extended: its old text is a prefix of
      the new one. */
  lemma MergeConfigExtends(text: string, content: string)
    ensures var r := MergeConfig(Some(text), content);
            |text| <= |r| && r[..|text|] == text
  {
    var r := MergeConfig(Some(text), content);
    if !Contains(text, content) {
      assert r == text + ("\n" + content);
    }
  }

  /** The result and the disk after `update_ssh_config`. */
  datatype ConfigRun = ConfigRun(result: Result<()>, disk: Disk)

  /** `update_ssh_config`: makes the file's directory, then merges the
      block into the file. Only the config file and the directories above
      it can change. */
  function UpdateSshConfig(d: Disk, configFile: Path, content: string): (r: ConfigRun)
    requires Consistent(d)
    ensures Consistent(r.disk)
    ensures var ready := MakeParent(d, configFile);
            configFile in ready.entries && configFile !in ready.files
            ==> r == ConfigRun(Err(IsADirectory), ready)
    ensures var ready := MakeParent(d, configFile);
            r.result.Ok? <==> !(configFile in ready.entries && configFile !in ready.files)
    ensures r.result.Ok? ==> configFile in r.disk.files
                             && r.disk.files[configFile]
                                == MergeConfig(if configFile in d.files then Some(d.files[configFile]) else None, content)
    ensures r.disk.files - {configFile} == d.files - {configFile}
    ensures d.entries <= r.disk.entries
    ensures forall q :: q in r.disk.entries && q !in d.entries && q != configFile
                        ==> q.absolute == configFile.absolute && |q.segments| < |configFile.segments|
                            && q.segments == configFile.segments[..|q.segments|]
  {
    var ready := MakeParent(d, configFile);
    forall q | q in ready.entries && q !in d.entries
      ensures q.absolute == configFile.absolute && |q.segments| < |configFile.segments|
              && q.segments == configFile.segments[..|q.segments|]
    {
      MakeParentShorter(d, configFile, q);
    }
    if configFile in ready.entries then
      match ReadFile(ready, configFile)
      case Err(e) => ConfigRun(Err(e), ready)
      case Ok(current) =>
        if Contains(current, content) then ConfigRun(Ok(()), ready)
        else ConfigRun(Ok(()), WriteFile(ready, configFile, current + "\n" + content))
    else
      ConfigRun(Ok(()), WriteFile(ready, configFile, content))
  }

  /** Updating the config twice is updating it once. */
  lemma UpdateSshConfigIdempotent(d: Disk, configFile: Path, content: string)
    requires Consistent(d) && UpdateSshConfig(d, configFile, content).result.Ok?
    ensures var once := UpdateSshConfig(d, configFile, content).disk;
            UpdateSshConfig(once, configFile, content) == ConfigRun(Ok(()), once)
  {
    var once := UpdateSshConfig(d, configFile, content).disk;
    var current := if configFile in d.files then Some(d.files[configFile]) else None;
    MergeConfigContains(current, content);
    assert Contains(once.files[configFile], content);
    assert configFile in once.entries;
    var ready := MakeParent(d, configFile);
    MakeParentIdempotent(d, configFile);
    assert MakeParent(once, configFile) == once by {
      assert ready.entries <= once.entries;
      if Parent(configFile).Some? && Parent(configFile).value !in once.entries {
        assert Ancestors(Parent(configFile).value) <= ready.entries;
      }
    }
  }

  /** The block is found by plain substring search, so one that differs
      only by a missing final line feed is appended again. */
  lemma ConfigMergeIsTextual(content: string)
    requires |content| > 0 && content[|content| - 1] == '\n'
    ensures var stripped := content[..|content| - 1];
            MergeConfig(Some(stripped), content) == stripped + "\n" + content
  {
    var stripped := content[..|content| - 1];
    assert |stripped| - |content| < 0;
  }

  // execute

  /** How `execute` ends: with exit status 1 and the message when `update`
      fails, otherwise after both git settings were attempted. */
  datatype Outcome =
    | Exit(code: int, message: string)
    | Finished(record: GitInit, store: ConfigStore, runs: seq<SetRun>)

  /** The two settings `execute` makes in the repository's configuration,
      the second reading the input the first left. Only those two keys
      can change. */
  function SetIdentity(store: ConfigStore, name: string, email: string, answers: seq<string>)
    : (r: (ConfigStore, seq<SetRun>))
    ensures r.0.writable == store.writable && |r.1| == 2
    ensures SameExcept(r.0.values, store.values, {"user.name", "user.email"})
  {
    var first := SetValueIn(Local, store, "user.name", name, answers);
    var second := SetValueIn(Local, first.0, "user.email", email, first.1.rest);
    SameExceptBoth(store.values, first.0.values, second.0.values, "user.name", "user.email");
    (second.0, [first.1, second.1])
  }

  /** Each identity key holds its requested value when its write went
      through; otherwise it is as it was before. */
  lemma SetIdentityKeys(store: ConfigStore, name: string, email: string, answers: seq<string>)
    ensures var r := SetIdentity(store, name, email, answers);
            r.1[0].write.Some? && r.1[0].result.Ok?
            ==> "user.name" in r.0.values && r.0.values["user.name"] == name
    ensures var r := SetIdentity(store, name, email, answers);
            !(r.1[0].write.Some? && r.1[0].result.Ok?)
            ==> ("user.name" in r.0.values <==> "user.name" in store.values)
                && ("user.name" in store.values ==> r.0.values["user.name"] == store.values["user.name"])
    ensures var r := SetIdentity(store, name, email, answers);
            r.1[1].write.Some? && r.1[1].result.Ok?
            ==> "user.email" in r.0.values && r.0.values["user.email"] == email
    ensures var r := SetIdentity(store, name, email, answers);
            !(r.1[1].write.Some? && r.1[1].result.Ok?)
            ==> ("user.email" in r.0.values <==> "user.email" in store.values)
                && ("user.email" in store.values ==> r.0.values["user.email"] == store.values["user.email"])
  {
    var first := SetValueIn(Local, store, "user.name", name, answers);
    var second := SetValueIn(Local, first.0, "user.email", email, first.1.rest);
    assert SetIdentity(store, name, email, answers) == (second.0, [first.1, second.1]);
    assert "user.name" != "user.email";
  }

  /** `execute`: runs `update`, then sets `user.name` and `user.email` in
      the repository's configuration. The results of the two settings are
      not looked at. */
  function Execute(g: GitInit, sys: SysInfo, sshHome: Result<Path>, fs: set<Path>,
                   store: ConfigStore, answers: seq<string>): (r: Outcome)
    ensures Update(g, sys, sshHome, fs).Err? ==> r == Exit(1, "Error: " + Update(g, sys, sshHome, fs).error)
    ensures r.Finished? <==> Update(g, sys, sshHome, fs).Ok?
    ensures r.Finished? ==> r.record == Update(g, sys, sshHome, fs).value && |r.runs| == 2
    ensures r.Finished? ==> r.store.writable == store.writable
    ensures r.Finished? ==> SameExcept(r.store.values, store.values, {"user.name", "user.email"})
    ensures r.Finished? ==> (r.store, r.runs) == SetIdentity(store, r.record.name, r.record.email, answers)
  {
    match Update(g, sys, sshHome, fs)
    case Err(e) => Exit(1, "Error: " + e)
    case Ok(record) =>
      var identity := SetIdentity(store, record.name, record.email, answers);
      Finished(record, identity.0, identity.1)
  }

  /** With git able to write and neither key set, `execute` records the
      identity's name and email. */
  lemma ExecuteRecordsIdentity(g: GitInit, sys: SysInfo, sshHome: Result<Path>, fs: set<Path>,
                               store: ConfigStore, answers: seq<string>)
    requires store.writable && "user.name" !in store.values && "user.email" !in store.values
    requires Update(g, sys, sshHome, fs).Ok?
    ensures var r := Execute(g, sys, sshHome, fs, store, answers);
            r.store.values["user.name"] == r.record.name && r.store.values["user.email"] == r.record.email
  {
    var record := Update(g, sys, sshHome, fs).value;
    assert Execute(g, sys, sshHome, fs, store, answers).store == SetIdentity(store, record.name, record.email, answers).0;
    SetValueInWrites(Local, store, "user.name", record.name, answers);
    var first := SetValueIn(Local, store, "user.name", record.name, answers);
    assert "user.email" !in first.0.values;
    SetValueInWrites(Local, first.0, "user.email", record.email, first.1.rest);
  }
}

=== FILE: permission.dfy ===
/** The yes/no confirmation gate: a two-option prompt whose default is
    "No". Only a selection that is not the default grants permission; an
    unrecognised answer is reported and treated as a refusal. */
module Permission {
  import opened Text
  import opened Prompts

  /** The prompt the gate asks: options y/Yes and n/No, default n/No. */
  function Gate(message: string): (p: PromptWithOptions)
    ensures p.message == message
    ensures p.options == [("y", "Yes"), ("n", "No")]
    ensures p.default == ("n", "No")
  {
    PromptWithOptions(message, [("y", "Yes"), ("n", "No")], ("n", "No"))
  }

  /** The decision the gate reaches on `line`, stated directly: the
      trimmed answer is "y" or "yes" in any case. */
  predicate Consents(line: string)
    ensures Consents(line) ==> |Trim(line)| == 1 || |Trim(line)| == 3
  {
    LowerStr(Trim(line)) == "y" || LowerStr(Trim(line)) == "yes"
  }

  /** Reads one line as the answer to `message`. Permission is granted
      exactly when the trimmed answer is "y" or "yes" in any case; the
      question itself never matters. */
  function PermissionGranted(message: string, line: string): (r: bool)
    ensures r == Consents(line)
  {
    var p := Gate(message);
    GateSelection(message, line);
    GateDefault(message);
    match Prompt(p, line)
    case Success(selection) => !IsDefault(p, selection)
    case Error(_) => false
  }

  /** Which of the two options a lower-cased selection matches. */
  lemma GateMatches(sel: string)
    ensures SelectMatch(("y", "Yes"), sel) <==> sel == "y" || sel == "yes"
    ensures SelectMatch(("n", "No"), sel) <==> sel == "n" || sel == "no"
  {
    assert LowerStr("y") == "y";
    assert LowerStr("Yes") == "yes";
    assert LowerStr("n") == "n";
    assert LowerStr("No") == "no";
  }

  /** The selection the gate compares: the lower-cased trimmed answer, or
      "n" for a blank answer. */
  lemma GateSelectionToken(message: string, line: string)
    ensures Selection(Gate(message), line) == if LowerStr(Trim(line)) == "" then "n" else LowerStr(Trim(line))
  {
    assert LowerStr("n") == "n";
  }

  /** What the gate's prompt returns for each kind of answer. */
  lemma GateSelection(message: string, line: string)
    ensures var sel := LowerStr(Trim(line));
            var r := Prompt(Gate(message), line);
            && ((sel == "y" || sel == "yes") ==> r == Success("Yes"))
            && ((sel == "" || sel == "n" || sel == "no") ==> r == Success("No"))
            && (sel != "" && sel != "y" && sel != "yes" && sel != "n" && sel != "no" ==> r.Error?)
  {
    var p := Gate(message);
    var sel := Selection(p, line);
    GateSelectionToken(message, line);
    GateMatches(sel);
    var r := Prompt(p, line);
    if sel == "y" || sel == "yes" {
      assert IsFirstSelectMatch(p.options, 0, sel);
    } else if sel == "n" || sel == "no" {
      assert IsFirstSelectMatch(p.options, 1, sel);
    }
  }

  lemma GateDefault(message: string)
    ensures !IsDefault(Gate(message), "Yes")
    ensures IsDefault(Gate(message), "No")
  {
    assert LowerStr("Yes") == "yes";
    assert LowerStr("No") == "no";
    assert LowerStr("n") == "n";
  }

  /** An empty line (which is also what end of input reads as) is a
      refusal: it selects the default key "n", whose value "No" is the
      default. */
  lemma EmptyLineDeclines(message: string)
    ensures !PermissionGranted(message, "")
    ensures !Consents("")
  {
    assert Trim("") == "";
  }

  /** Typical answers. */
  lemma GrantsUpperY(message: string)
    ensures PermissionGranted(message, "Y")
  {
    assert TrimStart("Y") == "Y";
    assert TrimEnd("Y") == "Y";
    assert LowerStr("Y") == "y";
  }

  lemma GrantsPaddedYes(message: string)
    ensures PermissionGranted(message, " yes\n")
  {
    assert TrimStart(" yes\n") == TrimStart("yes\n") == "yes\n";
    assert TrimEnd("yes\n") == TrimEnd("yes") == "yes";
    assert LowerStr("yes") == "yes";
  }

  lemma DeclinesMaybe(message: string)
    ensures !PermissionGranted(message, "maybe")
  {
    assert TrimStart("maybe") == "maybe";
    assert TrimEnd("maybe") == "maybe";
    assert LowerStr("maybe") == "maybe";
  }
}

=== FILE: process.dfy ===
/** External programs. Nothing is run: the outcome of each command is an
    input to the functions that issue it. */
module Process {
  /** A program invocation: the program and its argument list. */
  datatype Command = Command(program: string, args: seq<string>)

  /** What running a command gave: it could not be started, or it exited
      with a status (`success`, and its text for messages) and output. */
  datatype Exec =
    | SpawnFailed(reason: string)
    | Exited(success: bool, status: string, stdout: string, stderr: string)
}

=== FILE: prompts.dfy ===
/** The option prompt: a question, an ordered list of (key, value) options
    and a default pair. Reading a line of input selects an option by key or
    value, ignoring case; an empty line selects the default key. */
module Prompts {
  import opened Wrappers
  import opened Text

  /** One option: (key, value), for instance ("y", "Yes"). */
  type Entry = (string, string)

  datatype PromptWithOptions = PromptWithOptions(message: string, options: seq<Entry>, default: Entry)

  datatype PromptResult = Success(selection: string) | Error(message: string)

  const InvalidOption := "Invalid option selected. Defaulting to: "

  const DefaultTag := "[Default]"

  // Builders. Each replaces one part of the prompt and keeps the others.

  function WithMessage(p: PromptWithOptions, message: string): (r: PromptWithOptions)
    ensures r.message == message && r.options == p.options && r.default == p.default
  {
    p.(message := message)
  }

  function WithOption(p: PromptWithOptions, key: string, value: string): (r: PromptWithOptions)
    ensures r.options == p.options + [(key, value)]
    ensures r.message == p.message && r.default == p.default
  {
    p.(options := p.options + [(key, value)])
  }

  function WithDefaultKey(p: PromptWithOptions, key: string): (r: PromptWithOptions)
    ensures r.default == (key, p.default.1)
    ensures r.message == p.message && r.options == p.options
  {
    p.(default := (key, p.default.1))
  }

  function WithDefaultValue(p: PromptWithOptions, value: string): (r: PromptWithOptions)
    ensures r.default == (p.default.0, value)
    ensures r.message == p.message && r.options == p.options
  {
    p.(default := (p.default.0, value))
  }

  /** The option's key equals `key` up to case. */
  predicate KeyMatch(e: Entry, key: string) {
    LowerStr(e.0) == LowerStr(key)
  }

  /** The option's key or value equals the lower-cased selection up to case. */
  predicate SelectMatch(e: Entry, selection: string) {
    LowerStr(e.0) == selection || LowerStr(e.1) == selection
  }

  /** Index of the first option whose key matches, in the order
      `Iterator::find` visits them. */
  function KeyIndex(s: seq<Entry>, key: string): (r: Option<nat>)
    ensures r.Some? ==> r.value < |s| && KeyMatch(s[r.value], key)
                        && forall j :: 0 <= j < r.value ==> !KeyMatch(s[j], key)
    ensures r.None? ==> forall j :: 0 <= j < |s| ==> !KeyMatch(s[j], key)
  {
    if |s| == 0 then None
    else if KeyMatch(s[0], key) then Some(0)
    else match KeyIndex(s[1..], key)
      case None => None
      case Some(k) => Some(k + 1)
  }

  /** Index of the first option the selection matches. */
  function SelectIndex(s: seq<Entry>, selection: string): (r: Option<nat>)
    ensures r.Some? ==> r.value < |s| && SelectMatch(s[r.value], selection)
                        && forall j :: 0 <= j < r.value ==> !SelectMatch(s[j], selection)
    ensures r.None? ==> forall j :: 0 <= j < |s| ==> !SelectMatch(s[j], selection)
  {
    if |s| == 0 then None
    else if SelectMatch(s[0], selection) then Some(0)
    else match SelectIndex(s[1..], selection)
      case None => None
      case Some(k) => Some(k + 1)
  }

  predicate IsFirstKeyMatch(options: seq<Entry>, i: int, key: string) {
    0 <= i < |options| && KeyMatch(options[i], key)
    && forall j :: 0 <= j < i ==> !KeyMatch(options[j], key)
  }

  predicate IsFirstSelectMatch(options: seq<Entry>, i: int, selection: string) {
    0 <= i < |options| && SelectMatch(options[i], selection)
    && forall j :: 0 <= j < i ==> !SelectMatch(options[j], selection)
  }

  /** The value of the first option whose key equals `key` up to case;
      values are never compared. */
  function GetOptionValue(p: PromptWithOptions, key: string): (r: Option<string>)
    ensures r.None? <==> forall i :: 0 <= i < |p.options| ==> !KeyMatch(p.options[i], key)
    ensures r.Some? ==> forall i :: IsFirstKeyMatch(p.options, i, key) ==> r.value == p.options[i].1
    ensures r.Some? ==> exists i :: IsFirstKeyMatch(p.options, i, key)
  {
    match KeyIndex(p.options, key)
    case None => None
    case Some(i) =>
      assert IsFirstKeyMatch(p.options, i, key);
      Some(p.options[i].1)
  }

  /** The value the error message names: the value registered under the
      default key, or the default pair's own value when no option has that
      key. */
  function DefaultOptionValue(p: PromptWithOptions): (r: string)
    ensures (forall i :: 0 <= i < |p.options| ==> !KeyMatch(p.options[i], p.default.0)) ==> r == p.default.1
    ensures forall i :: IsFirstKeyMatch(p.options, i, p.default.0) ==> r == p.options[i].1
  {
    GetOptionValue(p, p.default.0).GetOr(p.default.1)
  }

  /** `selection` is the default key or the default value, ignoring case. */
  predicate IsDefault(p: PromptWithOptions, selection: string) {
    LowerStr(selection) == LowerStr(p.default.0) || LowerStr(selection) == LowerStr(p.default.1)
  }

  lemma IsDefaultIgnoresCase(p: PromptWithOptions, selection: string)
    ensures IsDefault(p, selection)
            <==> EqualsIgnoreCase(selection, p.default.0) || EqualsIgnoreCase(selection, p.default.1)
  {
    LowerStrEqualIff(selection, p.default.0);
    LowerStrEqualIff(selection, p.default.1);
  }

  /** The token compared with the options: the trimmed line, or the default
      key when the trimmed line is empty, lower-cased. */
  function Selection(p: PromptWithOptions, line: string): (r: string)
    ensures LowerStr(r) == r
    ensures Trim(line) != "" ==> EqualsIgnoreCase(r, Trim(line))
    ensures Trim(line) == "" ==> EqualsIgnoreCase(r, p.default.0)
  {
    var token := if Trim(line) == "" then p.default.0 else Trim(line);
    LowerStrIdempotent(token);
    LowerStrIgnoresCase(token);
    LowerStr(token)
  }

  /** The answer to an already normalised selection: the value of the
      first option it matches, or the error naming the default's value. */
  function Answer(p: PromptWithOptions, selection: string): (r: PromptResult)
    ensures r.Error? <==> forall i :: 0 <= i < |p.options| ==> !SelectMatch(p.options[i], selection)
    ensures r.Success? ==> forall i :: IsFirstSelectMatch(p.options, i, selection)
                                   ==> r.selection == p.options[i].1
    ensures r.Success? ==> exists i :: 0 <= i < |p.options| && r.selection == p.options[i].1
    ensures r.Error? ==> r.message == InvalidOption + DefaultOptionValue(p)
  {
    match SelectIndex(p.options, selection)
    case None => Error(InvalidOption + DefaultOptionValue(p))
    case Some(i) =>
      assert IsFirstSelectMatch(p.options, i, selection);
      Success(p.options[i].1)
  }

  /** Interprets one line of input. */
  function Prompt(p: PromptWithOptions, line: string): (r: PromptResult)
    ensures r.Error? <==> forall i :: 0 <= i < |p.options| ==> !SelectMatch(p.options[i], Selection(p, line))
    ensures r.Success? ==> forall i :: IsFirstSelectMatch(p.options, i, Selection(p, line))
                                   ==> r.selection == p.options[i].1
    ensures r.Success? ==> exists i :: 0 <= i < |p.options| && r.selection == p.options[i].1
    ensures r.Error? ==> r.message == InvalidOption + DefaultOptionValue(p)
  {
    Answer(p, Selection(p, line))
  }

  /** A blank line behaves exactly like the default key typed in. */
  lemma PromptBlankIsDefaultKey(p: PromptWithOptions, line: string)
    requires Trim(line) == ""
    requires Trim(p.default.0) == p.default.0 && p.default.0 != ""
    ensures Prompt(p, line) == Prompt(p, p.default.0)
  {
  }

  /** The case of the input line never matters. */
  lemma PromptIgnoresCase(p: PromptWithOptions, line: string)
    ensures Prompt(p, LowerStr(line)) == Prompt(p, line)
  {
    TrimLower(line);
    LowerStrIdempotent(Trim(line));
    assert Selection(p, LowerStr(line)) == Selection(p, line);
  }

  /** Whitespace around the input never matters. */
  lemma PromptIgnoresPadding(p: PromptWithOptions, pre: string, line: string, suf: string)
    requires forall i :: 0 <= i < |pre| ==> IsSpace(pre[i])
    requires forall i :: 0 <= i < |suf| ==> IsSpace(suf[i])
    ensures Prompt(p, pre + line + suf) == Prompt(p, line)
  {
    assert pre + line + suf == pre + (line + suf);
    TrimPrependSpaces(pre, line + suf);
    TrimAppendSpaces(line, suf);
    assert Selection(p, pre + line + suf) == Selection(p, line);
  }

  /** Options are searched in insertion order, so registering another
      option never changes a line that already selected something. */
  lemma WithOptionKeepsSelection(p: PromptWithOptions, key: string, value: string, line: string)
    requires Prompt(p, line).Success?
    ensures Prompt(WithOption(p, key, value), line) == Prompt(p, line)
  {
    var q := WithOption(p, key, value);
    var sel := Selection(p, line);
    assert Selection(q, line) == sel;
    var i :| 0 <= i < |p.options| && SelectMatch(p.options[i], sel);
    var k := FirstIndexOf(p.options, sel, i);
    assert IsFirstSelectMatch(p.options, k, sel);
    assert IsFirstSelectMatch(q.options, k, sel);
  }

  /** The first matching index exists once some index matches. */
  lemma {:induction false} FirstIndexOf(options: seq<Entry>, selection: string, i: int) returns (k: int)
    requires 0 <= i < |options| && SelectMatch(options[i], selection)
    ensures IsFirstSelectMatch(options, k, selection) && k <= i
    decreases i
  {
    if exists j :: 0 <= j < i && SelectMatch(options[j], selection) {
      var j :| 0 <= j < i && SelectMatch(options[j], selection);
      k := FirstIndexOf(options, selection, j);
    } else {
      k := i;
    }
  }

  // Display.

  /** The order the menu lists options in: by key, then by value. */
  predicate EntryLe(a: Entry, b: Entry) {
    if a.0 == b.0 then StrLe(a.1, b.1) else StrLe(a.0, b.0)
  }

  predicate Sorted(s: seq<Entry>) {
    forall i, j :: 0 <= i < j < |s| ==> EntryLe(s[i], s[j])
  }

  lemma EntryLeTotal(a: Entry, b: Entry)
    ensures EntryLe(a, b) || EntryLe(b, a)
  {
    StrLeTotal(a.0, b.0);
    StrLeTotal(a.1, b.1);
  }

  lemma EntryLeReflexive(a: Entry)
    ensures EntryLe(a, a)
  {
    StrLeReflexive(a.1);
  }

  lemma EntryLeTransitive(a: Entry, b: Entry, c: Entry)
    requires EntryLe(a, b) && EntryLe(b, c)
    ensures EntryLe(a, c)
  {
    if a.0 == b.0 && b.0 == c.0 {
      StrLeTransitive(a.1, b.1, c.1);
    } else if a.0 == b.0 {
      assert StrLe(b.0, c.0);
    } else if b.0 == c.0 {
      assert StrLe(a.0, b.0);
    } else {
      StrLeTransitive(a.0, b.0, c.0);
      if a.0 == c.0 {
        StrLeAntisymmetric(a.0, b.0);
      }
    }
  }

  lemma EntryLeAntisymmetric(a: Entry, b: Entry)
    requires EntryLe(a, b) && EntryLe(b, a)
    ensures a == b
  {
    if a.0 == b.0 {
      StrLeAntisymmetric(a.1, b.1);
    } else {
      StrLeAntisymmetric(a.0, b.0);
    }
  }

  /** Inserts `e` into a sorted list, keeping it sorted. */
  function Insert(e: Entry, s: seq<Entry>): (r: seq<Entry>)
    requires Sorted(s)
    ensures Sorted(r)
    ensures multiset(r) == multiset(s) + multiset{e}
  {
    if |s| == 0 then [e]
    else if EntryLe(e, s[0]) then
      InsertFrontSorted(e, s);
      [e] + s
    else
      assert s == [s[0]] + s[1..];
      var t := Insert(e, s[1..]);
      EntryLeTotal(e, s[0]);
      forall x | x in multiset(t)
        ensures EntryLe(s[0], x)
      {
        assert x == e || x in multiset(s[1..]);
      }
      ConsSorted(s[0], t);
      [s[0]] + t
  }

  lemma InsertFrontSorted(e: Entry, s: seq<Entry>)
    requires Sorted(s) && |s| > 0 && EntryLe(e, s[0])
    ensures Sorted([e] + s)
  {
    forall j | 0 < j < |s|
      ensures EntryLe(e, s[j])
    {
      EntryLeTransitive(e, s[0], s[j]);
    }
    ConsSorted(e, s);
  }

  lemma ConsSorted(x: Entry, t: seq<Entry>)
    requires Sorted(t)
    requires forall y :: y in multiset(t) ==> EntryLe(x, y)
    ensures Sorted([x] + t)
  {
    forall i, j | 0 <= i < j < |[x] + t|
      ensures EntryLe(([x] + t)[i], ([x] + t)[j])
    {
      if i == 0 {
        assert t[j - 1] in multiset(t);
      }
    }
  }

  /** The options in display order (`sort_by` on key, then value). */
  function SortEntries(s: seq<Entry>): (r: seq<Entry>)
    ensures Sorted(r)
    ensures multiset(r) == multiset(s)
  {
    if |s| == 0 then []
    else
      assert s == s[..|s| - 1] + [s[|s| - 1]];
      Insert(s[|s| - 1], SortEntries(s[..|s| - 1]))
  }

  /** Two sorted lists holding the same options are the same list: the
      display order depends only on which options there are, never on the
      order they were registered in. */
  lemma {:induction false} SortedUnique(a: seq<Entry>, b: seq<Entry>)
    requires Sorted(a) && Sorted(b) && multiset(a) == multiset(b)
    ensures a == b
    decreases |a|
  {
    if |a| > 0 {
      SortedSameHead(a, b);
      SameTail(a, b);
      SortedTail(a);
      SortedTail(b);
      SortedUnique(a[1..], b[1..]);
      assert a == [a[0]] + a[1..];
      assert b == [b[0]] + b[1..];
    } else {
      assert |b| == |multiset(b)| == 0;
    }
  }

  /** The least option comes first in every sorted arrangement. */
  lemma SortedSameHead(a: seq<Entry>, b: seq<Entry>)
    requires Sorted(a) && Sorted(b) && multiset(a) == multiset(b) && |a| > 0
    ensures |b| > 0 && a[0] == b[0]
  {
    assert |b| == |multiset(b)| == |multiset(a)| == |a|;
    assert a[0] in multiset(b) && b[0] in multiset(a);
    var i :| 0 <= i < |b| && b[i] == a[0];
    var j :| 0 <= j < |a| && a[j] == b[0];
    assert EntryLe(b[0], b[i]) by { if i == 0 { EntryLeReflexive(b[0]); } }
    assert EntryLe(a[0], a[j]) by { if j == 0 { EntryLeReflexive(a[0]); } }
    EntryLeAntisymmetric(a[0], b[0]);
  }

  lemma SameTail(a: seq<Entry>, b: seq<Entry>)
    requires |a| > 0 && |b| > 0 && a[0] == b[0] && multiset(a) == multiset(b)
    ensures multiset(a[1..]) == multiset(b[1..])
  {
    assert a == [a[0]] + a[1..];
    assert b == [b[0]] + b[1..];
    assert multiset(a) == multiset{a[0]} + multiset(a[1..]);
    assert multiset(b) == multiset{b[0]} + multiset(b[1..]);
    assert multiset(a[1..]) == multiset(a) - multiset{a[0]};
    assert multiset(b[1..]) == multiset(b) - multiset{b[0]};
  }

  lemma SortedTail(a: seq<Entry>)
    requires Sorted(a) && |a| > 0
    ensures Sorted(a[1..])
  {
    forall i, j | 0 <= i < j < |a[1..]|
      ensures EntryLe(a[1..][i], a[1..][j])
    {
      assert a[1..][i] == a[i + 1] && a[1..][j] == a[j + 1];
    }
  }

  lemma DisplayOrderIndependent(p: PromptWithOptions, q: PromptWithOptions)
    requires multiset(p.options) == multiset(q.options)
    ensures SortEntries(p.options) == SortEntries(q.options)
  {
    SortedUnique(SortEntries(p.options), SortEntries(q.options));
  }

  /** The tag on one menu line: present exactly when the option is the
      default pair, compared case-sensitively. */
  function Tag(e: Entry, default: Entry): (r: string)
    ensures r == DefaultTag <==> e.0 == default.0 && e.1 == default.1
    ensures r != DefaultTag ==> r == ""
  {
    if e.0 == default.0 && e.1 == default.1 then DefaultTag else ""
  }

  function MenuLine(e: Entry, default: Entry): string {
    "\t" + e.0 + ": " + e.1 + " " + Tag(e, default) + "\n"
  }

  function Concat(lines: seq<string>): string {
    if |lines| == 0 then "" else lines[0] + Concat(lines[1..])
  }

  /** The menu lines, one per option, in display order. */
  function MenuLines(p: PromptWithOptions): (r: seq<string>)
    ensures |r| == |p.options|
    ensures multiset(SortEntries(p.options)) == multiset(p.options)
    ensures forall i :: 0 <= i < |r| ==> r[i] == MenuLine(SortEntries(p.options)[i], p.default)
  {
    var sorted := SortEntries(p.options);
    assert |sorted| == |multiset(sorted)| == |multiset(p.options)| == |p.options|;
    seq(|sorted|, i requires 0 <= i < |sorted| => MenuLine(sorted[i], p.default))
  }

  /** What `print` writes before reading the answer. */
  function Menu(p: PromptWithOptions): (r: string)
    ensures |r| >= |p.message| + 4
    ensures r[..|p.message| + 1] == p.message + "\n"
    ensures r[|r| - 3..] == "=> "
    ensures r[|p.message| + 1..|r| - 3] == Concat(MenuLines(p))
  {
    var r := p.message + "\n" + Concat(MenuLines(p)) + "=> ";
    assert r == (p.message + "\n") + (Concat(MenuLines(p)) + "=> ");
    r
  }

  /** The tag compares case-sensitively although input matching does not. */
  lemma TagIsCaseSensitive()
    ensures Tag(("Y", "Yes"), ("y", "Yes")) == ""
    ensures KeyMatch(("Y", "Yes"), "y")
  {
    assert LowerStr("Y") == "y";
    assert LowerStr("y") == "y";
  }
}

=== FILE: text.dfy ===
/** Character and string helpers: ASCII lower-casing, whitespace trimming,
    substring search and the lexicographic order on strings. The program
    relies on Rust's `to_lowercase`, `trim`, `contains` and `cmp`; these are
    their ASCII counterparts. */
module Text {

  /** Whitespace as `str::trim` sees it in the ASCII range: tab, line feed,
      vertical tab, form feed, carriage return and space. */
  predicate IsSpace(c: char) {
    c == ' ' || ('\t' <= c <= '\r')
  }

  /** ASCII lower-casing of one character. */
  function Lower(c: char): char {
    if 'A' <= c <= 'Z' then (c as int + 32) as char else c
  }

  function LowerStr(s: string): string {
    seq(|s|, i requires 0 <= i < |s| => Lower(s[i]))
  }

  /** Equality up to ASCII case, character by character. */
  predicate EqualsIgnoreCase(a: string, b: string) {
    |a| == |b| && forall i :: 0 <= i < |a| ==> Lower(a[i]) == Lower(b[i])
  }

  lemma LowerIdempotent(c: char)
    ensures Lower(Lower(c)) == Lower(c)
  {
  }

  lemma LowerStrIdempotent(s: string)
    ensures LowerStr(LowerStr(s)) == LowerStr(s)
  {
    forall i | 0 <= i < |s|
      ensures LowerStr(LowerStr(s))[i] == LowerStr(s)[i]
    {
      LowerIdempotent(s[i]);
    }
  }

  /** A lower-cased string equals the original up to case. */
  lemma LowerStrIgnoresCase(s: string)
    ensures EqualsIgnoreCase(LowerStr(s), s)
  {
    forall i | 0 <= i < |s|
      ensures Lower(LowerStr(s)[i]) == Lower(s[i])
    {
      LowerIdempotent(s[i]);
    }
  }

  /** Comparing lower-cased strings is case-insensitive comparison. */
  lemma LowerStrEqualIff(a: string, b: string)
    ensures LowerStr(a) == LowerStr(b) <==> EqualsIgnoreCase(a, b)
  {
    if LowerStr(a) == LowerStr(b) {
      forall i | 0 <= i < |a|
        ensures Lower(a[i]) == Lower(b[i])
      {
        assert LowerStr(a)[i] == LowerStr(b)[i];
      }
    }
  }

  /** Removes leading whitespace (`trim_start`). */
  function TrimStart(s: string): string {
    if |s| > 0 && IsSpace(s[0]) then TrimStart(s[1..]) else s
  }

  /** Removes trailing whitespace (`trim_end`). */
  function TrimEnd(s: string): string {
    if |s| > 0 && IsSpace(s[|s| - 1]) then TrimEnd(s[..|s| - 1]) else s
  }

  /** Removes whitespace at both ends (`trim`). */
  function Trim(s: string): string {
    TrimEnd(TrimStart(s))
  }

  /** `trim_start` cuts a whitespace prefix and stops at the first
      character that is not whitespace. */
  lemma {:induction false} TrimStartSpec(s: string)
    ensures var r := TrimStart(s);
            && |r| <= |s| && r == s[|s| - |r|..]
            && (forall j :: 0 <= j < |s| - |r| ==> IsSpace(s[j]))
            && (r == [] || !IsSpace(r[0]))
    decreases |s|
  {
    if |s| > 0 && IsSpace(s[0]) {
      TrimStartSpec(s[1..]);
    }
  }

  /** `trim_end` cuts a whitespace suffix and stops at the last character
      that is not whitespace. */
  lemma {:induction false} TrimEndSpec(s: string)
    ensures var r := TrimEnd(s);
            && |r| <= |s| && r == s[..|r|]
            && (forall j :: |r| <= j < |s| ==> IsSpace(s[j]))
            && (r == [] || !IsSpace(r[|r| - 1]))
    decreases |s|
  {
    if |s| > 0 && IsSpace(s[|s| - 1]) {
      TrimEndSpec(s[..|s| - 1]);
    }
  }

  /** `r` is the slice of `s` starting at `i` with only whitespace before
      and after it. */
  predicate SliceBetweenSpace(s: string, r: string, i: int) {
    && 0 <= i <= |s| - |r| && r == s[i..i + |r|]
    && (forall j :: 0 <= j < i ==> IsSpace(s[j]))
    && (forall j :: i + |r| <= j < |s| ==> IsSpace(s[j]))
  }

  /** A whitespace suffix cut from a string after a whitespace prefix was
      cut leaves a slice between whitespace. */
  lemma SliceOfSlice(s: string, t: string, r: string)
    requires |t| <= |s| && t == s[|s| - |t|..]
    requires forall j :: 0 <= j < |s| - |t| ==> IsSpace(s[j])
    requires |r| <= |t| && r == t[..|r|]
    requires forall j :: |r| <= j < |t| ==> IsSpace(t[j])
    ensures SliceBetweenSpace(s, r, |s| - |t|)
  {
    var i := |s| - |t|;
    assert forall j :: i + |r| <= j < |s| ==> s[j] == t[j - i];
  }

  /** `trim`: the result is the slice of `s` between a whitespace prefix
      and a whitespace suffix, and neither of its ends is whitespace. */
  lemma TrimSpec(s: string)
    ensures var r := Trim(s);
            && (exists i :: SliceBetweenSpace(s, r, i))
            && (r == [] || (!IsSpace(r[0]) && !IsSpace(r[|r| - 1])))
  {
    var t := TrimStart(s);
    TrimStartSpec(s);
    TrimEndSpec(t);
    assert Trim(s) == TrimEnd(t);
    SliceOfSlice(s, t, Trim(s));
    if Trim(s) != [] {
      assert Trim(s)[0] == t[0];
    }
  }

  lemma LowerPreservesSpace(c: char)
    ensures IsSpace(Lower(c)) <==> IsSpace(c)
  {
  }

  lemma {:induction false} TrimStartLower(s: string)
    ensures TrimStart(LowerStr(s)) == LowerStr(TrimStart(s))
    decreases |s|
  {
    if |s| > 0 {
      LowerPreservesSpace(s[0]);
      if IsSpace(s[0]) {
        assert LowerStr(s)[1..] == LowerStr(s[1..]);
        TrimStartLower(s[1..]);
      }
    }
  }

  lemma {:induction false} TrimEndLower(s: string)
    ensures TrimEnd(LowerStr(s)) == LowerStr(TrimEnd(s))
    decreases |s|
  {
    if |s| > 0 {
      LowerPreservesSpace(s[|s| - 1]);
      if IsSpace(s[|s| - 1]) {
        assert LowerStr(s)[..|s| - 1] == LowerStr(s[..|s| - 1]);
        TrimEndLower(s[..|s| - 1]);
      }
    }
  }

  /** Trimming and lower-casing commute, since lower-casing maps whitespace
      to whitespace and nothing else to whitespace. */
  lemma TrimLower(s: string)
    ensures Trim(LowerStr(s)) == LowerStr(Trim(s))
  {
    TrimStartLower(s);
    TrimEndLower(TrimStart(s));
  }

  lemma {:induction false} TrimEndAppendSpace(s: string, c: char)
    requires IsSpace(c)
    ensures TrimEnd(s + [c]) == TrimEnd(s)
  {
    assert (s + [c])[..|s + [c]| - 1] == s;
  }

  lemma {:induction false} TrimStartAppend(s: string, c: char)
    ensures TrimStart(s + [c]) == if TrimStart(s) == [] then TrimStart([c]) else TrimStart(s) + [c]
    decreases |s|
  {
    if |s| > 0 {
      assert (s + [c])[0] == s[0];
      assert (s + [c])[1..] == s[1..] + [c];
      if IsSpace(s[0]) {
        TrimStartAppend(s[1..], c);
      }
    } else {
      assert s + [c] == [c];
    }
  }

  /** Appending whitespace (say, the line feed git prints after a value)
      does not change the trimmed text. */
  lemma TrimAppendSpace(s: string, c: char)
    requires IsSpace(c)
    ensures Trim(s + [c]) == Trim(s)
  {
    TrimStartAppend(s, c);
    if TrimStart(s) != [] {
      TrimEndAppendSpace(TrimStart(s), c);
    }
  }

  /** Leading whitespace does not change the trimmed text. */
  lemma TrimPrependSpace(c: char, s: string)
    requires IsSpace(c)
    ensures Trim([c] + s) == Trim(s)
  {
    assert ([c] + s)[1..] == s;
  }

  /** Any run of leading whitespace vanishes under trimming. */
  lemma {:induction false} TrimPrependSpaces(pre: string, s: string)
    requires forall i :: 0 <= i < |pre| ==> IsSpace(pre[i])
    ensures Trim(pre + s) == Trim(s)
    decreases |pre|
  {
    if |pre| > 0 {
      assert pre + s == [pre[0]] + (pre[1..] + s);
      TrimPrependSpace(pre[0], pre[1..] + s);
      TrimPrependSpaces(pre[1..], s);
    } else {
      assert pre + s == s;
    }
  }

  /** Any run of trailing whitespace vanishes under trimming. */
  lemma {:induction false} TrimAppendSpaces(s: string, suf: string)
    requires forall i :: 0 <= i < |suf| ==> IsSpace(suf[i])
    ensures Trim(s + suf) == Trim(s)
    decreases |suf|
  {
    if |suf| > 0 {
      var init := suf[..|suf| - 1];
      assert s + suf == (s + init) + [suf[|suf| - 1]];
      TrimAppendSpace(s + init, suf[|suf| - 1]);
      TrimAppendSpaces(s, init);
    } else {
      assert s + suf == s;
    }
  }

  /** `s` contains `sub` as a contiguous run (`str::contains`). */
  predicate Contains(s: string, sub: string) {
    exists i | 0 <= i <= |s| - |sub| :: OccursAt(s, sub, i)
  }

  predicate OccursAt(s: string, sub: string, i: int) {
    0 <= i <= |s| - |sub| && s[i..i + |sub|] == sub
  }

  lemma ContainsSuffix(a: string, b: string)
    ensures Contains(a + b, b)
  {
    assert OccursAt(a + b, b, |a|);
  }

  /** Four pieces written one after another: the first starts the text,
      the last ends it, and the two between occur in it. */
  lemma ConcatParts(a: string, b: string, c: string, d: string)
    ensures var r := a + b + c + d;
            && |r| >= |a| && r[..|a|] == a
            && |r| >= |d| && r[|r| - |d|..] == d
            && Contains(r, b) && Contains(r, c)
            && r[|a|..|a| + |b|] == b && r[|a| + |b|..|r| - |d|] == c
  {
    var r := a + b + c + d;
    assert r[|a|..|a| + |b|] == b;
    assert OccursAt(r, b, |a|);
    assert r[|a| + |b|..|a| + |b| + |c|] == c;
    assert OccursAt(r, c, |a| + |b|);
  }

  /** The text between a fixed lead and a closing character. */
  lemma EnclosedSlice(lead: string, x: string, close: char)
    ensures var r := lead + x + [close];
            r[|r| - |x| - 1..|r| - 1] == x
  {
  }

  lemma ContainsSelf(s: string)
    ensures Contains(s, s)
  {
    assert OccursAt(s, s, 0);
  }

  /** Lexicographic order on strings by code point (`str::cmp`, which is
      byte order on UTF-8 and therefore code point order). */
  predicate StrLe(a: string, b: string)
    decreases |a|
  {
    if a == [] then true
    else if b == [] then false
    else if a[0] != b[0] then a[0] < b[0]
    else StrLe(a[1..], b[1..])
  }

  lemma {:induction false} StrLeReflexive(a: string)
    ensures StrLe(a, a)
    decreases |a|
  {
    if a != [] {
      StrLeReflexive(a[1..]);
    }
  }

  lemma {:induction false} StrLeTotal(a: string, b: string)
    ensures StrLe(a, b) || StrLe(b, a)
    decreases |a|
  {
    if a != [] && b != [] && a[0] == b[0] {
      StrLeTotal(a[1..], b[1..]);
    }
  }

  lemma {:induction false} StrLeAntisymmetric(a: string, b: string)
    requires StrLe(a, b) && StrLe(b, a)
    ensures a == b
    decreases |a|
  {
    if a != [] && b != [] {
      StrLeAntisymmetric(a[1..], b[1..]);
      assert a == [a[0]] + a[1..];
      assert b == [b[0]] + b[1..];
    }
  }

  lemma {:induction false} StrLeTransitive(a: string, b: string, c: string)
    requires StrLe(a, b) && StrLe(b, c)
    ensures StrLe(a, c)
    decreases |a|
  {
    if a != [] && b != [] && c != [] && a[0] == b[0] && b[0] == c[0] {
      StrLeTransitive(a[1..], b[1..], c[1..]);
    }
  }
}

=== FILE: wrappers.dfy ===
/** Optional values and fallible results used throughout the model.
    Every failure of the program is reported as a message (the program's
    `anyhow` errors), so `Result` carries a string error. */
module Wrappers {

  datatype Option<+T> = None | Some(value: T) {

    /** The value, or `default` when there is none (`unwrap_or_else`). */
    function GetOr(default: T): T {
      match this
      case Some(v) => v
      case None => default
    }
  }

  datatype Result<+T> = Ok(value: T) | Err(error: string)
}
